=== FILE: README.md ===
# German financial planner: live-reload server and planning rules in Dafny

This project models two parts of the German financial planner repository.

The first is the development server `dev-server.py`. It serves the `public` tree,
answers `/live-reload-check` with a JSON snapshot of file modification times, and
splices a polling script into every HTML page it serves. That script reloads the page
once a later snapshot shows a changed file.

The second is the integer- and string-level rules of the browser planner:

- German number parsing and HTML escaping (`public/js/utils.js`);
- phase normalisation and year bookkeeping of the accumulation simulator
  (`public/js/core/accumulation.js`);
- the three-phase savings-plan editor (`public/js/ui/setup/setupScenarios.js`);
- the scenario tabs of the accumulation view (`public/js/features/scenarioManager.js`);
- the scenario list of the comparison tool (`public/js/features/scenarioComparison.js`).

Every operation is a pure function over immutable data, or a method with a loop where
the source loops. Its contract states what the source promises.

Modules:

| file | module | models |
|---|---|---|
| wrappers.dfy | `Wrappers` | `Option` and `Result` |
| strings.dfy | `Strings` | split/join, `replace`, `trim`, decimal digits, the splitting lemmas |
| utf8.dfy | `Utf8` | UTF-8 encoding (`str.encode('utf-8')`) and its decoder |
| snapshot.dfy | `Snapshot` | the directory walk of `/live-reload-check` |
| injector.dfy | `Injector` | script splicing, the page response and its headers, `do_GET` routing |
| poll_client.dfy | `PollClient` | the embedded polling script as a step function, and runs of pages |
| js_utils.dfy | `JsUtils` | `parseFloat`, `parseInt`, `parseGermanNumber`, `escapeHtml`, `clamp`, `findById`, `removeById`, letter ids |
| accumulation.dfy | `Accumulation` | `normalizePhases`, simulated years, the paying phase, salary growth at year ends, year-end records, the cost-basis clamp |
| phase_editor.dfy | `PhaseEditor` | `togglePhase`, `syncNextPhaseStart`, the phase summaries |
| scenario_tabs.dfy | `ScenarioTabs` | add / create / switch / remove / rename of the accumulation tabs |
| param_tree.dfy | `ParamTree` | the nested parameter object and its dotted-path get and set |
| scenario_comparison.dfy | `ScenarioComparison` | add / duplicate / remove / rename / visibility / parameter edits, the tax toggle, the performance scores |

JavaScript numbers are exact reals plus `Infinity`, `-Infinity` and `NaN`; there is no
binary64 rounding. Strings are sequences of Unicode scalar values. The file system walk,
timers, `fetch`, `confirm` and `prompt` become inputs of the functions that use them.

## Model

| member | source | states |
|---|---|---|
| Snapshot.JoinPath | dev-server.py:46 | `os.path.join(root, file)` ends with the file name |
| Snapshot.LastWriteNew | dev-server.py:45-47 | a watched file with a modification time sets its joined path to that time, whatever an earlier file with the same path set |
| Snapshot.LastWriteKept | dev-server.py:43-47 | a file that is not watched, or has another path, leaves an entry's last write in place |
| Snapshot.HasSuffixIsEndsWith | dev-server.py:45 | the recursive suffix test used for the watched extensions agrees with `str.endswith` |
| Snapshot.TakeSnapshot | dev-server.py:42-47 | the walk succeeds iff every watched file (`.html`, `.js`, `.css`) still has a modification time; otherwise it fails naming the first vanished one; on success every watched file's joined path is a key and every key maps to the time of the last watched file with that path, so nothing else is included |
| PollClient.ToOutcome | dev-server.py:71-73 | an aborted walk reaches the page as a failed poll, a finished one as its snapshot |
| PollClient.Step | dev-server.py:74-92 | a failed poll changes nothing; a reload happens only with a baseline and keeps that cache; any other received snapshot becomes the cache |
| PollClient.FirstPollNeverReloads | dev-server.py:74-77 | with an empty cache the snapshot becomes the baseline and the page does not reload |
| PollClient.FailureIsHarmless | dev-server.py:90-92 | a failed fetch or parse leaves the cache as it was and does not reload |
| PollClient.ReloadIffSomePathChanged | dev-server.py:79-88 | with a baseline, the page reloads iff some path of the new snapshot is absent from the cache or carries another time; otherwise the new snapshot replaces the cache |
| PollClient.UnchangedNeverReloads | dev-server.py:79-88 | a snapshot equal to the cache does not reload |
| PollClient.DisappearedPathsDoNotReload | dev-server.py:80-88 | paths that only disappeared do not reload, and the smaller snapshot becomes the cache |
| PollClient.OneChangedFileReloads | dev-server.py:80-85 | one new or rewritten path is enough to reload |
| PollClient.EmptySnapshotRestartsBaseline | dev-server.py:74-88 | an empty snapshot empties the cache, so the following poll only sets a new baseline |
| PollClient.Run | dev-server.py:95-96 | over a run of polls the reload count never drops and grows by at most one per poll |
| PollClient.SteadyCacheStays | dev-server.py:79-88 | polls that keep returning the cached tree leave page and cache unchanged |
| PollClient.SteadyTreeNeverReloads | dev-server.py:74-96 | a fresh page polling a constant non-empty tree never reloads |
| PollClient.OneReloadPerChange | dev-server.py:74-96 | after a baseline, a changed tree polled n times reloads exactly once and the new page takes it as baseline |
| PollClient.RewrittenScriptReloadsOnce | dev-server.py:74-88 | worked example: a page that saw index.html and app.js reloads once app.js gets a new time |
| Injector.SpliceOnlyInserts | dev-server.py:101-106 | with neither closing tag the script is appended once; otherwise the page is the chosen tag's pieces re-joined with script plus tag, the pieces hold no tag, so deleting the inserted copies gives back the page |
| Injector.BodyCloseTakesPrecedence | dev-server.py:101-102 | when `</body>` occurs, the script goes before every `</body>` and `</html>` plays no part |
| Injector.SpliceLength | dev-server.py:101-106 | the injected page is the original length plus one script length per occurrence of the chosen tag, or one in the append case |
| Injector.Splice | dev-server.py:101-106 | with neither closing tag the result is the page followed by the script; in every case the page grows by at least one script |
| Injector.EndHeaders | dev-server.py:19-29 | the three CORS headers, then the HTML content type exactly for `.html` paths and `/` |
| Injector.PageResponse | dev-server.py:109-113 | the body decodes back to the page; seven headers are sent, eight for `.html` paths and `/`, whose `end_headers` adds a second `Content-Type` |
| Injector.ContentLengthMatchesBody | dev-server.py:109-113 | the page response is a 200 that sends `Server` and `Date` first and has one `Content-Length`, whose decimal value is the byte length of the UTF-8 body, and the body decodes to the page |
| Injector.LStripSlash | dev-server.py:59 | `lstrip('/')` leaves no leading slash and a suffix of the path |
| Injector.OneLeadingSlash | dev-server.py:59 | a path with a single leading slash loses exactly that slash |
| Injector.RootServesDefaultPage | dev-server.py:32-33 | `/` is served as `/etf_savings.html`, read from `public/etf_savings.html` |
| Injector.RouteKinds | dev-server.py:32-36 | only the exact check path reaches the snapshot endpoint; every other `.html` path goes through the injector; a static file is never `/` or `.html` |
| Injector.RouteFor | dev-server.py:32-59 | an HTML route reads `public/` plus the path without its leading slashes, and its path ends in `.html` or is the default page; other paths are served under the path requested |
| Injector.ServeHtml | dev-server.py:58-62 | the injected response exists iff the file was read as text, and its body decodes to the injected page; a missing or unreadable file leaves the static response |
| Utf8.Encode | dev-server.py:111 | the byte count of the encoding is the page's encoded length, the figure `Content-Length` reports |
| Utf8.EncodedLength | dev-server.py:111 | the byte length is between one and four bytes per character |
| Utf8.AsciiEncodesToItself | dev-server.py:113 | ASCII text encodes byte for byte |
| Utf8.DecodeEncode | dev-server.py:111-113 | decoding the encoded page gives back the page |
| Strings.SplitJoin | dev-server.py:102 | joining the pieces of a split with its separator gives back the text |
| Strings.SplitFindsIffContains | dev-server.py:101-104 | a split yields more than one piece iff the text contains the separator |
| Strings.SplitPiecesFree | dev-server.py:102 | no piece of a split contains the separator |
| Strings.JoinWidened | dev-server.py:102 | replacing the separator by a longer one lengthens the joined text by the extra length once per gap |
| Strings.DecimalRoundTrip | dev-server.py:111 | `str(n)` is all digits and reads back as `n` |
| Strings.Trim | public/js/features/scenarioManager.js:701 | `trim()` keeps no leading or trailing blank, and is empty iff the text is all blanks |
| Strings.TrimIdempotent | public/js/features/scenarioManager.js:710-716 | trimming a trimmed name changes nothing |
| JsUtils.DigitRun | public/js/utils.js:39 | the longest prefix of digits |
| JsUtils.ScanDecimal | public/js/utils.js:39 | a decimal literal is found iff the text starts with a digit or with a point and a digit |
| JsUtils.SignAndBody | public/js/utils.js:39 | a text starting with a digit has no sign to strip |
| JsUtils.ParseFloat | public/js/utils.js:39 | NaN exactly when, after blanks and a sign, the text starts neither with `Infinity` nor with a digit or a point and a digit; an infinity comes only from `Infinity`, and `-Infinity` only with a minus sign |
| JsUtils.ParseFloatOfDigitStart | public/js/utils.js:39 | `parseFloat` of a text starting with a digit is the value of its longest decimal prefix |
| JsUtils.ParseFloatReadsDecimal | public/js/utils.js:39 | `parseFloat` reads a written natural number back as itself |
| JsUtils.ParseInt | public/js/core/accumulation.js:106-107 | `parseInt(s, 10)` is a number iff digits follow the blanks and sign |
| JsUtils.ParseIntReadsDecimal | public/js/core/accumulation.js:106 | `parseInt` reads a written natural number back as itself |
| JsUtils.ParseIntThenFloatFinite | public/js/core/accumulation.js:104-106 | a text `parseInt` can read is also finite for `parseFloat` |
| JsUtils.RemoveDotsShape | public/js/utils.js:38 | removing the dots leaves no dot, drops exactly the dots and keeps every comma |
| JsUtils.FirstCommaShape | public/js/utils.js:38 | only the first comma becomes a point; without a comma nothing changes |
| JsUtils.NormalizeGermanShape | public/js/utils.js:38 | the normalised text has at most one point, which exists iff the input had a comma, and is the input minus its dots |
| JsUtils.ParseGermanNumber | public/js/utils.js:33-41 | a number is returned unchanged, a value that is neither number nor string gives 0, and a string never gives NaN |
| JsUtils.PlainNumberReadsAsItself | public/js/utils.js:38-40 | a written natural number reads as itself |
| JsUtils.ThousandsDotIgnored | public/js/utils.js:38-40 | a thousands dot changes neither the normalised text nor the number |
| JsUtils.CommaBecomesPoint | public/js/utils.js:38 | digits, a comma and digits normalise to the same digits around a point |
| JsUtils.PointReadsAsFraction | public/js/utils.js:39 | `parseFloat` of digits, a point and digits is the whole part plus the fraction |
| JsUtils.DecimalCommaReadsAsFraction | public/js/utils.js:38-40 | a German decimal `a,b` reads as the number a.b |
| JsUtils.TextReadsAsZero | public/js/utils.js:39-40 | text starting with a letter reads as 0, not NaN |
| JsUtils.EscapeChar | public/js/utils.js:65-71 | each of the five special characters becomes an entity starting with `&`; every other character stays |
| JsUtils.EscapeHtml | public/js/utils.js:64-73 | the output has no raw `<`, `>`, `"` or `'`, is never shorter, and equals a text without specials |
| JsUtils.EscapeConcat | public/js/utils.js:72 | escaping works character by character |
| JsUtils.UnescapeEscape | public/js/utils.js:64-73 | reading the five entities back gives the original text, so escaping loses nothing |
| JsUtils.Clamp | public/js/utils.js:109-111 | a NaN argument, and only that, gives NaN; with `lo <= hi` the result lies in `[lo, hi]`, is the value when already in range, `lo` below the range and `hi` above it; `hi` wins when the bounds cross; infinities order as in JavaScript |
| JsUtils.FindIndex | public/js/utils.js:96-98 | the index of the first item with the id, or none when no item has it |
| JsUtils.FindById | public/js/utils.js:96-98 | an item is found iff some item has the id, and it is the first item in the array with that id |
| JsUtils.RemoveById | public/js/utils.js:100-102 | no survivor has the id, and the list shrinks by exactly the number of items that had it |
| JsUtils.RemoveByIdConcat | public/js/utils.js:100-102 | the filter works item by item, so survivors keep their order |
| JsUtils.RemoveKeepsOthers | public/js/utils.js:100-102 | every item with another id survives |
| JsUtils.RemoveAbsentId | public/js/utils.js:100-102 | removing an id nobody has returns the list unchanged |
| JsUtils.LetterId | public/js/features/scenarioManager.js:37 | `String.fromCharCode(65 + n)` is one capital letter |
| JsUtils.LetterIdInjective | public/js/features/scenarioManager.js:37 | different list lengths give different ids |
| Accumulation.IntOr | public/js/core/accumulation.js:106-107 | `parseInt(x) \|\| fallback` takes the fallback for NaN and 0 only |
| Accumulation.NormalizePhase | public/js/core/accumulation.js:105-113 | a normalised phase starts in year 1 or later, ends no earlier than it starts, has a number as rate, and keeps its return iff it was a non-NaN number; a non-NaN rate is kept as given and a NaN rate becomes 0, and a kept return is the given number |
| Accumulation.NormalizePhases | public/js/core/accumulation.js:102-115 | no more phases come out than went in, each with `1 <= startYear <= endYear` |
| Accumulation.NormalizeConcat | public/js/core/accumulation.js:103-105 | entries are filtered and mapped one by one, so survivors keep their order |
| Accumulation.NormalizeSingle | public/js/core/accumulation.js:104 | an entry survives iff it is present and its start year parses to a finite number |
| Accumulation.WholeYearsKept | public/js/core/accumulation.js:106-107 | whole start and end years with `1 <= start <= end` are kept as given |
| Accumulation.EarlyEndRaised | public/js/core/accumulation.js:107 | an end year before the start year is raised to it |
| Accumulation.Duration | public/js/core/accumulation.js:133 | the duration is never negative and is a finite non-negative input unchanged |
| Accumulation.MaxEndYear | public/js/core/accumulation.js:135 | the largest end year of the phases |
| Accumulation.TotalYears | public/js/core/accumulation.js:134-136 | total years reach both the duration and every end year, and are one of the two |
| Accumulation.Round | public/js/core/accumulation.js:137 | `Math.round` is within half a year, halves rounding up |
| Accumulation.EffectiveYears | public/js/core/accumulation.js:137 | the simulated years are the rounded total, never negative, and cover every phase's end year |
| Accumulation.YearOfMonth | public/js/core/accumulation.js:176 | month index `m` lies in year `y`, months `12(y-1)` to `12y-1` |
| Accumulation.PhaseIndexForYear | public/js/core/accumulation.js:183 | the first phase covering the year, or none when no phase covers it |
| Accumulation.MaxZero | public/js/core/accumulation.js:187 | `Math.max(0, x)` of a number is a non-negative number |
| Accumulation.MonthlyContribution | public/js/core/accumulation.js:182-196 | a month's contribution is never NaN or negative; with phases it is 0 in a year no phase covers; without phases it is the current contribution floored at 0 |
| Accumulation.NormalizedRatesAreNumbers | public/js/core/accumulation.js:111 | normalised phases always carry a number as rate |
| Accumulation.EarlierPhaseWins | public/js/core/accumulation.js:183-187 | the paying phase is the first covering one, and it pays `max(0, rate + adjustment)` |
| Accumulation.YearlyRecords | public/js/core/accumulation.js:152-296 | `effectiveYears + 1` records for years `0..N` in order; year 0 carries the initial contribution and the base salary; year y carries the contribution paid in its months and the salary of that year, both after the salary steps of the earlier year ends |
| Accumulation.MonthStep | public/js/core/accumulation.js:237 | the last month of a whole-year run is a year end, and the year number advances exactly after a year-end month, so each year gets one record |
| Accumulation.RaiseAdjustments | public/js/core/accumulation.js:289-293 | the increase is added to the adjustment of exactly the phases whose end year is at least the next year; the others keep theirs |
| Accumulation.NoGrowthKeepsStart | public/js/core/accumulation.js:279 | with salary growth or its savings share not positive, salary, contribution and adjustments never change |
| Accumulation.SalaryCompounds | public/js/core/accumulation.js:279-281 | while growth is on, the salary of year y is the base salary times `(1 + growth)^(y - 1)`, up to the last simulated year |
| Accumulation.ModesStaySeparate | public/js/core/accumulation.js:286-294 | without phases the adjustments stay empty; with phases `currentMonthlyContribution` stays at its initial value |
| Accumulation.GrowthOnlyRises | public/js/core/accumulation.js:285-294 | from a year to any later one the contribution and every phase adjustment never fall |
| Accumulation.AdjustmentFrozenAfterEnd | public/js/core/accumulation.js:290 | a phase's adjustment no longer changes after its end year |
| Accumulation.SecondYearRaised | public/js/core/accumulation.js:279-288 | without phases, a positive increase after year 1 makes the year-2 contribution the initial one plus that increase |
| Accumulation.ClampCostBasis | public/js/core/accumulation.js:230-235 | the cost basis is never negative, never above a non-negative balance, and unchanged when already in range |
| Accumulation.ClampIdempotent | public/js/core/accumulation.js:230-235 | clamping a clamped cost basis changes nothing |
| PhaseEditor.SnapEnd | public/js/ui/setup/setupScenarios.js:586-591 | the end year becomes the start when it lies below it, and otherwise stays the old end year; nothing else changes |
| PhaseEditor.TogglePhase | public/js/ui/setup/setupScenarios.js:551-602 | phase 1 is never switched off; phases 2 and 3 flip; an enabled later phase becomes active, starts the year after the previous end, and ends at that start if its old end was earlier, else at its old end; no other phase changes |
| PhaseEditor.ToggleTwiceRestoresFlag | public/js/ui/setup/setupScenarios.js:560-591 | toggling phase 2 or 3 twice restores its on/off state and touches no other phase |
| PhaseEditor.SyncNextPhaseStart | public/js/ui/setup/setupScenarios.js:492-519 | nothing happens for phase 3 or an inactive next phase; otherwise the next phase starts after the current end, and when its start had to move its end is that start if the old end was earlier, else the old end; other phases stay |
| PhaseEditor.SyncIdempotent | public/js/ui/setup/setupScenarios.js:492-519 | synchronising twice is synchronising once |
| PhaseEditor.AlignedStartKeepsEarlyEnd | public/js/ui/setup/setupScenarios.js:505-517 | worked example: a next phase whose start already follows on keeps an end year before that start |
| PhaseEditor.PhaseMonths | public/js/ui/setup/setupScenarios.js:616-617 | a phase's months are twelve per year of duration, or 0 for a negative duration |
| PhaseEditor.OrderedPhaseHasAYear | public/js/ui/setup/setupScenarios.js:616-617 | a phase whose end is not before its start has at least 12 months |
| PhaseEditor.LatestEnd | public/js/ui/setup/setupScenarios.js:651-652 | the largest active end year, or 0 with no active phase |
| PhaseEditor.MultiPhaseSummary | public/js/ui/setup/setupScenarios.js:634-673 | the count of active phases, the latest active end year, the sum of months times rate, and an average rate that times the months gives that sum, or 0 without months |
| PhaseEditor.UniformRateContributions | public/js/ui/setup/setupScenarios.js:642-659 | with one rate for every active phase the contributions are months times that rate |
| PhaseEditor.UniformRateAverage | public/js/ui/setup/setupScenarios.js:661 | with one rate for every active phase the average is that rate |
| ScenarioTabs.NewScenario | public/js/features/scenarioManager.js:37-45 | a new scenario has id `chr(65 + n)`, the name `Szenario <id>`, and empty inputs, yearly data and results |
| ScenarioTabs.CreateWithoutSwitching | public/js/features/scenarioManager.js:83-113 | refused at four scenarios; otherwise exactly the new scenario is appended and the selections stay |
| ScenarioTabs.SwitchTo | public/js/features/scenarioManager.js:142-146 | only the active id changes |
| ScenarioTabs.AddNewScenario | public/js/features/scenarioManager.js:20-77 | refused at four scenarios with no change; otherwise one new scenario is appended after the unchanged old ones, becomes active and joins the chart selection |
| ScenarioTabs.AddIsCreateThenSwitch | public/js/features/scenarioManager.js:20-113 | adding is creating without switching, then switching to and charting the new scenario |
| ScenarioTabs.RemoveScenario | public/js/features/scenarioManager.js:626-673 | `A` and unconfirmed removals change nothing; otherwise the list keeps exactly the other ids in order, the id leaves the chart selection, and an active or contributions selection of it falls back to `A` |
| ScenarioTabs.RenameScenario | public/js/features/scenarioManager.js:679-716 | each outcome holds exactly when its condition does: `NotFound` iff the id is absent, `Cancelled` iff found with no answer, `EmptyName` iff found with a blank trimmed answer, `Unchanged` iff the trimmed answer equals the first match's name; these four change nothing, and a found id with a non-blank, different trimmed answer is `Renamed`, with only the first match's name replaced by the trimmed answer |
| ScenarioTabs.AddKeepsValid | public/js/features/scenarioManager.js:20-113 | adding keeps `A` present, the selections pointing at existing scenarios and at most four scenarios |
| ScenarioTabs.RemoveKeepsValid | public/js/features/scenarioManager.js:633-666 | removal keeps `A` present and every selection pointing at an existing scenario |
| ScenarioTabs.RenameKeepsValid | public/js/features/scenarioManager.js:679-716 | renaming changes no id, so the invariant holds |
| ScenarioTabs.HasIdAfterRemove | public/js/features/scenarioManager.js:640 | every other id survives the filter |
| ScenarioTabs.RemoveThenAddRepeatsId | public/js/features/scenarioManager.js:37 | worked example: from A, B, C, removing B and adding gives a second C |
| ParamTree.SetAt | public/js/features/scenarioComparison.js:603-615 | the write succeeds iff the parent path leads to an object, and the result is an object |
| ParamTree.GetAt | public/js/features/scenarioComparison.js:1021-1031 | the empty path reads the value itself; any further key of a number or a flag reads as 0 |
| ParamTree.MissingKeyReadsZero | public/js/features/scenarioComparison.js:1025-1028 | once the walk meets a non-object or a missing key, the whole path reads as 0 |
| ParamTree.GetAfterSet | public/js/features/scenarioComparison.js:1021-1031 | reading the path just written gives the written value |
| ParamTree.SetLeavesOtherPaths | public/js/features/scenarioComparison.js:603-615 | a write changes nothing on a path that parts from the written one |
| ParamTree.SetKeepsParent | public/js/features/scenarioComparison.js:608-614 | after a write the parent path still leads to an object |
| ParamTree.SetIdempotent | public/js/features/scenarioComparison.js:603-615 | writing the same value twice is writing it once |
| ParamTree.SplitTwoSegments | public/js/features/scenarioComparison.js:607 | worked example: `'a.b'.split('.')` is `['a', 'b']` for dot-free `a` and `b` |
| ScenarioComparison.AddScenario | public/js/features/scenarioComparison.js:1213-1268 | refused at six; otherwise one visible scenario with the next letter, the name `Szenario <id>`, the default parameters and empty results is appended after the unchanged old ones |
| ScenarioComparison.DuplicateScenario | public/js/features/scenarioComparison.js:1287-1315 | refused at six and ignored for an unknown id; otherwise a copy of the first matching scenario with the next letter, `Kopie von <name>`, equal parameters and visibility and empty results is appended |
| ScenarioComparison.RemoveScenario | public/js/features/scenarioComparison.js:1317-1349 | `A`, an unknown id and an unconfirmed removal change nothing; otherwise only the first scenario with the id is spliced out |
| ScenarioComparison.SetVisibility | public/js/features/scenarioComparison.js:1351-1358 | only the `visible` flag of the first matching scenario changes |
| ScenarioComparison.RenameScenario | public/js/features/scenarioComparison.js:1271-1285 | an unknown id, a cancelled prompt or a blank answer change nothing; otherwise the first matching scenario takes the trimmed answer |
| ScenarioComparison.UpdateParameter | public/js/features/scenarioComparison.js:603-615 | an unknown id changes nothing; otherwise the write succeeds iff the parent path is an object, reads back as the written value, and changes nothing but that scenario's parameters |
| ScenarioComparison.UpdateLeavesOtherParameters | public/js/features/scenarioComparison.js:603-615 | other parameter paths of the scenario keep their values |
| ScenarioComparison.FlagWithDependent | public/js/features/scenarioComparison.js:582-596 | an unknown id changes nothing; a successful change keeps the number of scenarios and changes only parameters |
| ScenarioComparison.IncludeTaxChanged | public/js/features/scenarioComparison.js:582-596 | an unknown id changes nothing; a successful change keeps the number of scenarios and changes only parameters |
| ScenarioComparison.FlagOnKeepsDependent | public/js/features/scenarioComparison.js:582-589 | switching a flag on writes `true` to it on the first scenario with the id, leaves its dependent as it was, and changes no other scenario |
| ScenarioComparison.DependentClearedWhenOff | public/js/features/scenarioComparison.js:582-596 | switching a flag off writes false to it and to its dependent sibling, on that scenario only |
| ScenarioComparison.TaxOffClearsTeilfreistellung | public/js/features/scenarioComparison.js:587-595 | turning `accumulation.includeTax` off leaves it and `accumulation.teilfreistellung` false |
| ScenarioComparison.TaxOnKeepsTeilfreistellung | public/js/features/scenarioComparison.js:582-589 | switching the tax on sets `includeTax` and keeps `teilfreistellung` as it was; no other scenario changes |
| ScenarioComparison.InitialValid | public/js/features/scenarioComparison.js:7-76 | the tool starts with `A` among at most six scenarios |
| ScenarioComparison.AddKeepsValid | public/js/features/scenarioComparison.js:1213-1315 | adding and duplicating keep `A` and the cap of six |
| ScenarioComparison.EditsKeepValid | public/js/features/scenarioComparison.js:603-615 | visibility, renaming and parameter writes keep `A` and the cap |
| ScenarioComparison.RemoveKeepsValid | public/js/features/scenarioComparison.js:1317-1331 | removal never takes out `A` |
| ScenarioComparison.RemoveTakesOneCopy | public/js/features/scenarioComparison.js:1325-1328 | removal lowers the count of scenarios with the id by exactly one |
| ScenarioComparison.VisibilityRoundTrip | public/js/features/scenarioComparison.js:1351-1358 | restoring the old flag gives back the list |
| ScenarioComparison.PerformanceMetrics | public/js/features/scenarioComparison.js:299-328 | no scores without a non-zero `finalNominal`; otherwise risk and efficiency are at most 10 and stability at least 0; with non-negative inflation risk is at least 0 and stability and overall at most 10 |
| ScenarioComparison.RiskGrowsWithReturn | public/js/features/scenarioComparison.js:307-310 | a higher expected return never lowers the risk score |
| ScenarioComparison.UntaxedIsMostEfficient | public/js/features/scenarioComparison.js:313-315 | leaving tax out scores as more efficient than any taxed setting |

## Behaviour of the code worth knowing

- A file that vanishes between the listing and `os.path.getmtime` raises out of the walk,
  so `/live-reload-check` answers with no snapshot at all (dev-server.py:43-47). It does
  not skip the file. `Snapshot.TakeSnapshot` fails in that case, and the page sees a failed
  poll.
- `str.replace` puts the script before every occurrence of the chosen closing tag, not
  only the first (dev-server.py:102, 104).
- The six `scenarioEmojis` are stored mis-encoded: each is U+F8FF followed by three
  Latin-1 letters rather than the intended chart, target or rocket emoji
  (public/js/features/scenarioComparison.js:11, 45, 79). `ScenarioComparison.Emojis` holds
  those code points as stored.
- `syncNextPhaseStart` raises the next phase's end year only when it had to move that
  phase's start. A next phase that already starts in the right year keeps an end year
  that lies before its start (public/js/ui/setup/setupScenarios.js:505-517).

## Left out

- Server plumbing: the threaded TCP server, the port, `os.chdir`, `SimpleHTTPRequestHandler` file serving and the startup messages. These are I/O.
- The static response `super().do_GET()` has already written before the injected one (dev-server.py:53, 109-113). This is stream I/O; `Injector.ServeHtml` models only the second response.
- The values of the `Server` and `Date` headers come from `version_string()` and `date_time_string()` (the Python version and the clock); they are inputs of `Injector.PageResponse`.
- `os.walk` and `getmtime` are an input sequence of walked files; `setInterval` and `fetch` are a sequence of poll outcomes. The `console.log` calls are left out.
- JSON encoding of the snapshot and its parsing in the page are left out; a snapshot is a map from path to time.
- Money arithmetic: monthly compounding, `computeMonthlyRate`, taxes, the IRR search and `calculateAccumulationPhase`/`calculateWithdrawalPhase` rely on floating point and `Math.pow`.
- The net salary used by salary growth (public/js/core/accumulation.js:280-283) comes from `calculateGermanNetSalary` in `core/tax.js`, which is not part of this model; it is the `netSalary` input of `Accumulation.SalaryPlan`. The year-end step itself is modelled in exact reals.
- Accumulation.YearlyRecords: keeps only the `year`, `monthlySavings` and `yearlySalary` fields of a record; capital, tax and net-salary fields come from the money arithmetic left out above.
- JsUtils.ParseGermanNumber: numbers are exact reals, so `parseFloat` rounding and exponents beyond what `ScanDecimal` reads are not modelled as binary64.
- Accumulation.NormalizePhase: `Number(phase.monthlySavingsRate || 0)` is modelled for a number or a missing rate; a string rate is not modelled.
- Locale formatting (`formatCurrency`, `formatGermanNumber`, `toLocaleString`) depends on `Intl`, which is not part of this model.
- Rendering and UI: charts, DOM event wiring, panels, tabs, modals, notifications, export and download.
- `getMultiPhaseData` (public/js/core/accumulation.js:623-648) reads the DOM; the phase editor model works on the three phase records instead.
- The `min` attribute of the end-year input (public/js/ui/setup/setupScenarios.js:511) only constrains the browser's spinner, so it is not modelled.
- The savings-rate input parsing of the phase panels is taken as an already parsed number per phase.
- `copyScenario` (public/js/features/scenarioManager.js:564-620) copies DOM input values between panels.
- ScenarioTabs.AddNewScenario: uses the built-in colour map for A-D; a `window.scenarioColors` set elsewhere is not modelled.
- ScenarioComparison.PerformanceMetrics: takes the parameters it reads as numbers; a missing parameter (NaN arithmetic) and a NaN `finalNominal` are not modelled.
- ScenarioComparison.FlagWithDependent: the dependent is written as if its toggle were on the panel; the `if (teilfreistellungToggle)` lookup (public/js/features/scenarioComparison.js:587-588) and the `disabled` state are DOM.
- ParamTree.GetAt: keys inherited from the object prototype (such as `constructor`) are not modelled; only own keys are found.
- ScenarioComparison.DuplicateScenario: the JSON deep copy is exact here because parameters are numbers and flags, never NaN.
- The legacy `public/js/ui/setup.js` duplicates the `ui/setup/` modules and is not loaded by `app.js`; `public/js/utils/utils.js` duplicates `parseGermanNumber`, which is modelled once.
- `setupBudget.js`, `setupTaxes.js`, `setupWithdrawal.js` and `app.js` are thin wrappers over `core/budget.js`, `core/tax.js` and `core/withdrawal.js`, which are not part of this model.
- The browser-storage scenario managers (`ansparphaseScenarioManager.js`, `entnahmephaseScenarioManager.js`) are modal UI over `localStorage`.

=== FILE: accumulation.dfy ===
/**
 * The bookkeeping of the accumulation simulator
 * (public/js/core/accumulation.js): how savings phases are normalised,
 * how many years are simulated, which phase pays into a month, which
 * year-end records are produced, how salary growth raises the
 * contribution at each year end, and the cost-basis clamp. The money
 * arithmetic itself (returns, taxes) is not modelled; the net-salary
 * function salary growth uses is an input.
 *
 * Raw year fields are the text `parseFloat`/`parseInt` see: a number
 * arrives as its decimal rendering.
 */
module Accumulation {
  import opened Wrappers
  import opened Strings
  import opened JsUtils

  const MonthsPerYear: nat := 12

  /** One entry of the `phases` argument as the caller passed it. */
  datatype RawPhase = RawPhase(startYear: string, endYear: string, monthlySavingsRate: JsNumber, annualReturn: JsValue)

  /** A phase after `normalizePhases`. */
  datatype Phase = Phase(startYear: int, endYear: int, monthlySavingsRate: JsNumber, annualReturn: Option<JsNumber>)

  /** `x || fallback` for the result of `parseInt`: NaN and 0 are falsy. */
  function IntOr(x: Option<int>, fallback: int): (r: int)
    ensures x.Some? && x.value != 0 ==> r == x.value
    ensures x.None? || x == Some(0) ==> r == fallback
  {
    if x.Some? && x.value != 0 then x.value else fallback
  }

  function Max(a: int, b: int): (m: int)
    ensures m >= a && m >= b && (m == a || m == b)
  {
    if a >= b then a else b
  }

  /** The filter of `normalizePhases`: present, and `parseFloat(startYear)` finite. */
  predicate Kept(entry: Option<RawPhase>) {
    entry.Some? && ParseFloat(entry.value.startYear).Finite?
  }

  /** The map of `normalizePhases` for one kept entry. */
  function NormalizePhase(raw: RawPhase): (p: Phase)
    ensures p.startYear >= 1
    ensures p.endYear >= p.startYear
    ensures raw.monthlySavingsRate != NaN ==> p.monthlySavingsRate == raw.monthlySavingsRate
    ensures raw.monthlySavingsRate == NaN ==> p.monthlySavingsRate == Finite(0.0)
    ensures p.annualReturn.None? <==> !(raw.annualReturn.Num? && raw.annualReturn.n != NaN)
    ensures p.annualReturn.Some? ==> p.annualReturn.value == raw.annualReturn.n && p.annualReturn.value != NaN
  {
    var start := Max(1, IntOr(ParseInt(raw.startYear), 1));
    var end := Max(start, IntOr(ParseInt(raw.endYear), start));
    var rate := if raw.monthlySavingsRate == NaN || raw.monthlySavingsRate == Finite(0.0) then Finite(0.0) else raw.monthlySavingsRate;
    var ret := if raw.annualReturn.Num? && raw.annualReturn.n != NaN then Some(raw.annualReturn.n) else None;
    Phase(start, end, rate, ret)
  }

  /** Every phase starts in year 1 or later and ends no earlier than it starts. */
  predicate Ordered(phases: seq<Phase>) {
    forall k :: 0 <= k < |phases| ==> 1 <= phases[k].startYear <= phases[k].endYear
  }

  lemma OrderedCons(p: Phase, rest: seq<Phase>)
    requires 1 <= p.startYear <= p.endYear && Ordered(rest)
    ensures Ordered([p] + rest)
  {
    assert forall k :: 1 <= k <= |rest| ==> ([p] + rest)[k] == rest[k - 1];
  }

  /** `normalizePhases(phases)`; `None` entries are `null`/`undefined`. */
  function NormalizePhases(entries: seq<Option<RawPhase>>): (r: seq<Phase>)
    ensures |r| <= |entries|
    ensures Ordered(r)
  {
    if |entries| == 0 then []
    else
      var rest := NormalizePhases(entries[1..]);
      if Kept(entries[0]) then
        var p := NormalizePhase(entries[0].value);
        OrderedCons(p, rest);
        [p] + rest
      else rest
  }

  /** Entries are normalised one at a time, so the survivors keep their order. */
  lemma {:induction false} NormalizeConcat(a: seq<Option<RawPhase>>, b: seq<Option<RawPhase>>)
    ensures NormalizePhases(a + b) == NormalizePhases(a) + NormalizePhases(b)
  {
    if |a| > 0 {
      assert (a + b)[0] == a[0];
      assert (a + b)[1..] == a[1..] + b;
      NormalizeConcat(a[1..], b);
    } else {
      assert a + b == b;
    }
  }

  /** A single entry survives exactly when it is present with a finite start year. */
  lemma NormalizeSingle(entry: Option<RawPhase>)
    ensures NormalizePhases([entry]) == (if Kept(entry) then [NormalizePhase(entry.value)] else [])
  {
    assert [entry][1..] == [];
  }

  /** A start year given as a positive integer is kept as it is, and so is a later end year. */
  lemma WholeYearsKept(raw: RawPhase, start: nat, end: nat)
    requires raw.startYear == NatToDecimal(start) && raw.endYear == NatToDecimal(end)
    requires 1 <= start <= end
    ensures Kept(Some(raw))
    ensures NormalizePhase(raw).startYear == start && NormalizePhase(raw).endYear == end
  {
    ParseIntReadsDecimal(start);
    ParseIntReadsDecimal(end);
    ParseFloatReadsDecimal(start);
  }

  /** An end year before the start year is raised to the start year. */
  lemma EarlyEndRaised(raw: RawPhase, start: nat, end: nat)
    requires raw.startYear == NatToDecimal(start) && raw.endYear == NatToDecimal(end)
    requires 1 <= start && end < start
    ensures NormalizePhase(raw).endYear == start
  {
    ParseIntReadsDecimal(start);
    ParseIntReadsDecimal(end);
  }

  // ---------------------------------------------------------------------
  // Simulated years
  // ---------------------------------------------------------------------

  /** `Math.max(0, Number.isFinite(durationYears) ? durationYears : 0)`. */
  function Duration(durationYears: JsNumber): (d: real)
    ensures d >= 0.0
    ensures durationYears.Finite? && durationYears.r >= 0.0 ==> d == durationYears.r
  {
    if durationYears.Finite? && durationYears.r > 0.0 then durationYears.r else 0.0
  }

  /** The largest end year of a non-empty phase list. */
  function MaxEndYear(phases: seq<Phase>): (m: int)
    requires |phases| > 0
    ensures forall k :: 0 <= k < |phases| ==> phases[k].endYear <= m
    ensures exists k :: 0 <= k < |phases| && phases[k].endYear == m
  {
    if |phases| == 1 then phases[0].endYear
    else
      var rest := MaxEndYear(phases[1..]);
      assert forall k :: 1 <= k < |phases| ==> phases[k] == phases[1..][k - 1];
      Max(phases[0].endYear, rest)
  }

  /** `totalYears`: the duration, stretched to the last phase's end year. */
  function TotalYears(durationYears: JsNumber, phases: seq<Phase>): (t: real)
    ensures t >= Duration(durationYears)
    ensures forall k :: 0 <= k < |phases| ==> t >= phases[k].endYear as real
    ensures |phases| == 0 ==> t == Duration(durationYears)
    ensures |phases| > 0 ==> t == Duration(durationYears) || t == MaxEndYear(phases) as real
  {
    var d := Duration(durationYears);
    if |phases| == 0 then d
    else
      var m := MaxEndYear(phases) as real;
      if d >= m then d else m
  }

  /** `Math.round(x)`: the nearest integer, halves rounded up. */
  function Round(x: real): (n: int)
    ensures x - 0.5 < n as real <= x + 0.5
  {
    (x + 0.5).Floor
  }

  /** `effectiveYears = Math.max(0, Math.round(totalYears))`. */
  function EffectiveYears(durationYears: JsNumber, phases: seq<Phase>): (n: nat)
    ensures n as real <= TotalYears(durationYears, phases) + 0.5
    ensures TotalYears(durationYears, phases) - 0.5 < n as real
    ensures forall k :: 0 <= k < |phases| ==> phases[k].endYear <= n
  {
    Max(0, Round(TotalYears(durationYears, phases)))
  }

  // ---------------------------------------------------------------------
  // Months and the paying phase
  // ---------------------------------------------------------------------

  /** `yearNumber` of month `monthIndex`: months 0-11 are year 1. */
  function YearOfMonth(monthIndex: nat): (y: nat)
    ensures y >= 1
    ensures (y - 1) * MonthsPerYear <= monthIndex < y * MonthsPerYear
  {
    monthIndex / MonthsPerYear + 1
  }

  predicate Covers(p: Phase, year: int) {
    p.startYear <= year <= p.endYear
  }

  /** `normalizedPhases.findIndex(...)` for a year: the first phase covering it. */
  function PhaseIndexForYear(phases: seq<Phase>, year: int): (r: Option<nat>)
    ensures r.Some? ==> r.value < |phases| && Covers(phases[r.value], year)
    ensures r.Some? ==> forall j :: 0 <= j < r.value ==> !Covers(phases[j], year)
    ensures r.None? <==> forall j :: 0 <= j < |phases| ==> !Covers(phases[j], year)
  {
    if |phases| == 0 then None
    else if Covers(phases[0], year) then Some(0)
    else
      match PhaseIndexForYear(phases[1..], year)
      case None =>
        assert forall j :: 1 <= j < |phases| ==> phases[j] == phases[1..][j - 1];
        None
      case Some(k) => Some(k + 1)
  }

  /** JavaScript `+` of a number and a finite adjustment. */
  function AddReal(x: JsNumber, a: real): JsNumber {
    match x
    case Finite(r) => Finite(r + a)
    case _ => x
  }

  /** `Math.max(0, x)`. */
  function MaxZero(x: JsNumber): (r: JsNumber)
    ensures x != NaN ==> r != NaN && r != NegInfinity && (r.Finite? ==> r.r >= 0.0)
  {
    match x
    case Finite(r) => Finite(if r > 0.0 then r else 0.0)
    case NegInfinity => Finite(0.0)
    case _ => x
  }

  /** `phaseAdjustments[i] || 0`. */
  function AdjustmentAt(adjustments: seq<real>, i: nat): real {
    if i < |adjustments| then adjustments[i] else 0.0
  }

  /**
   * The contribution paid in a month of year `year`: in phase mode the
   * first covering phase's rate plus its salary adjustment, floored at
   * 0, or 0 when no phase covers the year; without phases the current
   * contribution floored at 0.
   */
  function MonthlyContribution(phases: seq<Phase>, adjustments: seq<real>, current: real, year: int): (c: JsNumber)
    requires forall k :: 0 <= k < |phases| ==> phases[k].monthlySavingsRate != NaN
    ensures c != NaN && c != NegInfinity
    ensures c.Finite? ==> c.r >= 0.0
    ensures |phases| > 0 && PhaseIndexForYear(phases, year).None? ==> c == Finite(0.0)
    ensures |phases| == 0 ==> c == Finite(if current > 0.0 then current else 0.0)
  {
    if |phases| > 0 then
      match PhaseIndexForYear(phases, year)
      case None => Finite(0.0)
      case Some(i) => MaxZero(AddReal(phases[i].monthlySavingsRate, AdjustmentAt(adjustments, i)))
    else Finite(if current > 0.0 then current else 0.0)
  }

  /** Every normalised phase list meets the contribution's requirement. */
  lemma {:induction false} NormalizedRatesAreNumbers(entries: seq<Option<RawPhase>>)
    ensures forall k :: 0 <= k < |NormalizePhases(entries)| ==> NormalizePhases(entries)[k].monthlySavingsRate != NaN
    decreases |entries|
  {
    if |entries| > 0 {
      NormalizedRatesAreNumbers(entries[1..]);
    }
  }

  /** The phase paying into a year is the first phase, in list order, whose range holds that year. */
  lemma EarlierPhaseWins(phases: seq<Phase>, adjustments: seq<real>, current: real, year: int, i: nat)
    requires forall k :: 0 <= k < |phases| ==> phases[k].monthlySavingsRate != NaN
    requires i < |phases| && Covers(phases[i], year)
    requires forall j :: 0 <= j < i ==> !Covers(phases[j], year)
    ensures MonthlyContribution(phases, adjustments, current, year)
      == MaxZero(AddReal(phases[i].monthlySavingsRate, AdjustmentAt(adjustments, i)))
  {
  }

  // ---------------------------------------------------------------------
  // Salary growth at year ends
  // ---------------------------------------------------------------------

  /**
   * The salary inputs of `simulateAccumulationPhase`. `netSalary` stands
   * for `calculateGermanNetSalary`, which lives in `core/tax.js`.
   */
  datatype SalaryPlan = SalaryPlan(growth: real, toSavings: real, baseSalary: real, netSalary: real -> real)

  /** The year-end step runs only with positive growth and savings share, and only before the last year. */
  predicate GrowsAfter(plan: SalaryPlan, effectiveYears: nat, year: nat) {
    plan.growth > 0.0 && plan.toSavings > 0.0 && year < effectiveYears
  }

  /** `currentSalary` after the year-end step of `year`. */
  function YearEndSalary(plan: SalaryPlan, effectiveYears: nat, salary: real, year: nat): real {
    if GrowsAfter(plan, effectiveYears, year) then salary * (1.0 + plan.growth) else salary
  }

  /** `currentSalary` during year `year` (year 1 is the start). */
  function SalaryInYear(plan: SalaryPlan, effectiveYears: nat, year: nat): real {
    if year <= 1 then plan.baseSalary
    else YearEndSalary(plan, effectiveYears, SalaryInYear(plan, effectiveYears, year - 1), year - 1)
  }

  /**
   * What the month loop carries from year to year for the contribution:
   * `currentMonthlyContribution` and `phaseAdjustments`.
   */
  datatype Growth = Growth(current: real, adjustments: seq<real>)

  /** The state before the first month: the initial contribution and no adjustments. */
  function StartGrowth(phases: seq<Phase>, initialContribution: real): (g: Growth)
    ensures |g.adjustments| == |phases|
  {
    Growth(initialContribution, seq(|phases|, _ => 0.0))
  }

  /** `monthlyIncrease` after a year at `salary`: the monthly share of the net raise. */
  function MonthlyIncrease(plan: SalaryPlan, salary: real): real {
    (plan.netSalary(salary * (1.0 + plan.growth)) - plan.netSalary(salary)) / (MonthsPerYear as real) * plan.toSavings
  }

  /** The `forEach` over the phases: phases still running next year get the increase. */
  function RaiseAdjustments(phases: seq<Phase>, adjustments: seq<real>, increase: real, year: int): (r: seq<real>)
    requires |adjustments| == |phases|
    ensures |r| == |phases|
    ensures forall i :: 0 <= i < |phases| && phases[i].endYear >= year + 1 ==> r[i] == adjustments[i] + increase
    ensures forall i :: 0 <= i < |phases| && phases[i].endYear < year + 1 ==> r[i] == adjustments[i]
  {
    if |phases| == 0 then []
    else
      [if phases[0].endYear >= year + 1 then adjustments[0] + increase else adjustments[0]]
      + RaiseAdjustments(phases[1..], adjustments[1..], increase, year)
  }

  /**
   * The contribution side of the step at the end of year `year`, for a
   * year lived at `salary`: when the step runs and the monthly increase
   * is positive, it is added to the contribution without phases, or to
   * the adjustment of every phase that still runs next year.
   */
  function YearEndGrowth(phases: seq<Phase>, effectiveYears: nat, plan: SalaryPlan, salary: real, g: Growth, year: nat): (r: Growth)
    requires |g.adjustments| == |phases|
    ensures |r.adjustments| == |phases|
  {
    if GrowsAfter(plan, effectiveYears, year) && MonthlyIncrease(plan, salary) > 0.0 then
      var increase := MonthlyIncrease(plan, salary);
      if |phases| == 0 then g.(current := g.current + increase)
      else g.(adjustments := RaiseAdjustments(phases, g.adjustments, increase, year))
    else g
  }

  /** The contribution state in force during the months of year `year`. */
  function GrowthInYear(phases: seq<Phase>, effectiveYears: nat, initialContribution: real, plan: SalaryPlan, year: nat): (g: Growth)
    ensures |g.adjustments| == |phases|
  {
    if year <= 1 then StartGrowth(phases, initialContribution)
    else
      YearEndGrowth(phases, effectiveYears, plan, SalaryInYear(plan, effectiveYears, year - 1),
                    GrowthInYear(phases, effectiveYears, initialContribution, plan, year - 1), year - 1)
  }

  /** `x^n` for the salary compounding. */
  function Power(x: real, n: nat): real {
    if n == 0 then 1.0 else x * Power(x, n - 1)
  }

  /** With growth or its savings share not positive, neither salary nor contribution ever changes. */
  lemma {:induction false} NoGrowthKeepsStart(phases: seq<Phase>, effectiveYears: nat, initialContribution: real, plan: SalaryPlan, year: nat)
    requires plan.growth <= 0.0 || plan.toSavings <= 0.0
    ensures GrowthInYear(phases, effectiveYears, initialContribution, plan, year) == StartGrowth(phases, initialContribution)
    ensures SalaryInYear(plan, effectiveYears, year) == plan.baseSalary
    decreases year
  {
    if year > 1 {
      NoGrowthKeepsStart(phases, effectiveYears, initialContribution, plan, year - 1);
    }
  }

  /** `now = prev * x` and `prev = base * p` give `now = base * (x * p)`. */
  lemma ScaleChain(now: real, prev: real, base: real, p: real, q: real, x: real)
    requires now == prev * x && prev == base * p && q == x * p
    ensures now == base * q
  {
  }

  /**
   * While growth is on, the salary of year `y` is the base salary
   * compounded `y - 1` times, up to the last simulated year.
   */
  lemma {:induction false} SalaryCompounds(plan: SalaryPlan, effectiveYears: nat, year: nat)
    requires plan.growth > 0.0 && plan.toSavings > 0.0
    requires 1 <= year <= effectiveYears
    ensures SalaryInYear(plan, effectiveYears, year) == plan.baseSalary * Power(1.0 + plan.growth, year - 1)
    decreases year
  {
    if year > 1 {
      SalaryCompounds(plan, effectiveYears, year - 1);
      var x := 1.0 + plan.growth;
      ScaleChain(SalaryInYear(plan, effectiveYears, year), SalaryInYear(plan, effectiveYears, year - 1),
                 plan.baseSalary, Power(x, year - 2), Power(x, year - 1), x);
    }
  }

  /**
   * The two modes never mix: without phases the adjustments stay empty,
   * and with phases `currentMonthlyContribution` keeps its initial value.
   */
  lemma {:induction false} ModesStaySeparate(phases: seq<Phase>, effectiveYears: nat, initialContribution: real, plan: SalaryPlan, year: nat)
    ensures |phases| > 0 ==> GrowthInYear(phases, effectiveYears, initialContribution, plan, year).current == initialContribution
    ensures |phases| == 0 ==> GrowthInYear(phases, effectiveYears, initialContribution, plan, year).adjustments == []
    decreases year
  {
    if year > 1 {
      ModesStaySeparate(phases, effectiveYears, initialContribution, plan, year - 1);
    }
  }

  /** Contributions and adjustments only ever rise from one year to a later one. */
  lemma {:induction false} GrowthOnlyRises(phases: seq<Phase>, effectiveYears: nat, initialContribution: real, plan: SalaryPlan, early: nat, late: nat)
    requires early <= late
    ensures var g0 := GrowthInYear(phases, effectiveYears, initialContribution, plan, early);
      var g1 := GrowthInYear(phases, effectiveYears, initialContribution, plan, late);
      g0.current <= g1.current && forall i :: 0 <= i < |phases| ==> g0.adjustments[i] <= g1.adjustments[i]
    decreases late
  {
    if early < late {
      GrowthOnlyRises(phases, effectiveYears, initialContribution, plan, early, late - 1);
    }
  }

  /**
   * A phase's adjustment stops changing at its end year: the raise after
   * year `y` only reaches phases that run in year `y + 1`.
   */
  lemma {:induction false} AdjustmentFrozenAfterEnd(phases: seq<Phase>, effectiveYears: nat, initialContribution: real, plan: SalaryPlan, i: nat, year: nat)
    requires i < |phases| && 1 <= phases[i].endYear <= year
    ensures GrowthInYear(phases, effectiveYears, initialContribution, plan, year).adjustments[i]
      == GrowthInYear(phases, effectiveYears, initialContribution, plan, phases[i].endYear).adjustments[i]
    decreases year
  {
    if year > phases[i].endYear {
      AdjustmentFrozenAfterEnd(phases, effectiveYears, initialContribution, plan, i, year - 1);
    }
  }

  // ---------------------------------------------------------------------
  // Year-end records
  // ---------------------------------------------------------------------

  /** The parts of a `yearlyData` record this model keeps. */
  datatype YearRecord = YearRecord(year: nat, monthlySavings: JsNumber, yearlySalary: real)

  /** The contribution paid in every month of year `year`, salary growth included. */
  function ContributionInYear(phases: seq<Phase>, effectiveYears: nat, initialContribution: real, plan: SalaryPlan, year: nat): JsNumber
    requires forall k :: 0 <= k < |phases| ==> phases[k].monthlySavingsRate != NaN
  {
    var g := GrowthInYear(phases, effectiveYears, initialContribution, plan, year);
    MonthlyContribution(phases, g.adjustments, g.current, year)
  }

  /**
   * `records` are the records of years `0 .. |records| - 1` as the loop
   * pushes them: the year-0 record first, then each year's contribution
   * and salary.
   */
  ghost predicate RecordsSoFar(records: seq<YearRecord>, effectiveYears: nat, phases: seq<Phase>, initialContribution: real, plan: SalaryPlan)
    requires forall k :: 0 <= k < |phases| ==> phases[k].monthlySavingsRate != NaN
  {
    && |records| >= 1
    && records[0] == YearRecord(0, Finite(initialContribution), plan.baseSalary)
    && (forall y :: 0 <= y < |records| ==> records[y].year == y)
    && (forall y :: 1 <= y < |records| ==>
          records[y].monthlySavings == ContributionInYear(phases, effectiveYears, initialContribution, plan, y)
          && records[y].yearlySalary == SalaryInYear(plan, effectiveYears, y))
  }

  /** Pushing the record of the next year, from the state in force in it, keeps `RecordsSoFar`. */
  lemma PushRecord(records: seq<YearRecord>, effectiveYears: nat, phases: seq<Phase>, initialContribution: real, plan: SalaryPlan, g: Growth, salary: real)
    requires forall k :: 0 <= k < |phases| ==> phases[k].monthlySavingsRate != NaN
    requires RecordsSoFar(records, effectiveYears, phases, initialContribution, plan)
    requires g == GrowthInYear(phases, effectiveYears, initialContribution, plan, |records|)
    requires salary == SalaryInYear(plan, effectiveYears, |records|)
    ensures RecordsSoFar(records + [YearRecord(|records|, MonthlyContribution(phases, g.adjustments, g.current, |records|), salary)],
                         effectiveYears, phases, initialContribution, plan)
  {
  }

  /** The year-end step turns the state in force in `year` into the state of the next year. */
  lemma NextYearGrowth(phases: seq<Phase>, effectiveYears: nat, initialContribution: real, plan: SalaryPlan,
                       year: nat, g: Growth, salary: real)
    requires year >= 1
    requires g == GrowthInYear(phases, effectiveYears, initialContribution, plan, year)
    requires salary == SalaryInYear(plan, effectiveYears, year)
    ensures YearEndGrowth(phases, effectiveYears, plan, salary, g, year)
      == GrowthInYear(phases, effectiveYears, initialContribution, plan, year + 1)
    ensures YearEndSalary(plan, effectiveYears, salary, year) == SalaryInYear(plan, effectiveYears, year + 1)
  {
  }

  /**
   * The month loop of `simulateAccumulationPhase`, reduced to the
   * records it pushes and the salary step after each: the year-0
   * record, then at every year end (month 11 of a year, or the last
   * month) a record of that year carrying the last month's contribution
   * and the salary of that year, followed by the salary step.
   */
  method YearlyRecords(effectiveYears: nat, phases: seq<Phase>, initialContribution: real, plan: SalaryPlan)
    returns (records: seq<YearRecord>)
    requires forall k :: 0 <= k < |phases| ==> phases[k].monthlySavingsRate != NaN
    ensures |records| == effectiveYears + 1
    ensures records[0] == YearRecord(0, Finite(initialContribution), plan.baseSalary)
    ensures forall y :: 0 <= y < |records| ==> records[y].year == y
    ensures forall y :: 1 <= y < |records| ==>
      records[y].monthlySavings == ContributionInYear(phases, effectiveYears, initialContribution, plan, y)
      && records[y].yearlySalary == SalaryInYear(plan, effectiveYears, y)
  {
    records := [YearRecord(0, Finite(initialContribution), plan.baseSalary)];
    var totalMonths := effectiveYears * MonthsPerYear;
    var growth := StartGrowth(phases, initialContribution);
    var salary := plan.baseSalary;
    var lastContribution := Finite(initialContribution);
    var monthIndex := 0;
    while monthIndex < totalMonths
      invariant 0 <= monthIndex <= totalMonths
      invariant |records| == monthIndex / MonthsPerYear + 1
      invariant growth == GrowthInYear(phases, effectiveYears, initialContribution, plan, |records|)
      invariant salary == SalaryInYear(plan, effectiveYears, |records|)
      invariant RecordsSoFar(records, effectiveYears, phases, initialContribution, plan)
    {
      var yearNumber := YearOfMonth(monthIndex);
      var monthWithinYear := monthIndex % MonthsPerYear;
      lastContribution := MonthlyContribution(phases, growth.adjustments, growth.current, yearNumber);
      var isYearEnd := monthWithinYear == MonthsPerYear - 1 || monthIndex == totalMonths - 1;
      MonthStep(monthIndex, effectiveYears);
      if isYearEnd {
        assert yearNumber == |records|;
        PushRecord(records, effectiveYears, phases, initialContribution, plan, growth, salary);
        NextYearGrowth(phases, effectiveYears, initialContribution, plan, yearNumber, growth, salary);
        records := records + [YearRecord(yearNumber, lastContribution, salary)];
        growth := YearEndGrowth(phases, effectiveYears, plan, salary, growth, yearNumber);
        salary := YearEndSalary(plan, effectiveYears, salary, yearNumber);
      }
      monthIndex := monthIndex + 1;
    }
  }

  /**
   * Without phases, a positive increase after year 1 reaches the year-2
   * record: its contribution is the initial one plus that increase.
   */
  lemma SecondYearRaised(effectiveYears: nat, initialContribution: real, plan: SalaryPlan)
    requires plan.growth > 0.0 && plan.toSavings > 0.0 && effectiveYears >= 2
    requires initialContribution >= 0.0 && MonthlyIncrease(plan, plan.baseSalary) > 0.0
    ensures ContributionInYear([], effectiveYears, initialContribution, plan, 2)
      == Finite(initialContribution + MonthlyIncrease(plan, plan.baseSalary))
  {
    assert GrowthInYear([], effectiveYears, initialContribution, plan, 1) == StartGrowth([], initialContribution);
    assert SalaryInYear(plan, effectiveYears, 1) == plan.baseSalary;
    assert GrowthInYear([], effectiveYears, initialContribution, plan, 2).current
      == initialContribution + MonthlyIncrease(plan, plan.baseSalary);
  }

  /**
   * The run is whole years, so its last month is month 11 of its year,
   * and the year count of the months done grows exactly at month 11.
   */
  lemma MonthStep(monthIndex: nat, years: nat)
    requires monthIndex < years * MonthsPerYear
    ensures monthIndex == years * MonthsPerYear - 1 ==> monthIndex % MonthsPerYear == MonthsPerYear - 1
    ensures monthIndex % MonthsPerYear == MonthsPerYear - 1 ==> (monthIndex + 1) / MonthsPerYear == monthIndex / MonthsPerYear + 1
    ensures monthIndex % MonthsPerYear != MonthsPerYear - 1 ==> (monthIndex + 1) / MonthsPerYear == monthIndex / MonthsPerYear
  {
    if monthIndex == years * MonthsPerYear - 1 {
      assert monthIndex == (years - 1) * MonthsPerYear + 11;
    }
  }

  /** `costBasis` after a month: capped at the balance, then floored at 0. */
  function ClampCostBasis(costBasis: real, balance: real): (c: real)
    ensures c >= 0.0
    ensures balance >= 0.0 ==> c <= balance
    ensures 0.0 <= costBasis <= balance ==> c == costBasis
    ensures c <= costBasis || c == 0.0
  {
    var capped := if costBasis > balance then balance else costBasis;
    if capped < 0.0 then 0.0 else capped
  }

  /** A second clamp changes nothing. */
  lemma ClampIdempotent(costBasis: real, balance: real)
    requires balance >= 0.0
    ensures ClampCostBasis(ClampCostBasis(costBasis, balance), balance) == ClampCostBasis(costBasis, balance)
  {
  }
}

=== FILE: injector.dfy ===
/**
 * Serving of HTML pages by the development server (dev-server.py): the
 * live-reload client script is spliced into the page text and the
 * response is rebuilt with a `Content-Length` that counts the UTF-8
 * bytes actually written. Also the request routing of `do_GET`.
 */
module Injector {
  import opened Wrappers
  import opened Strings
  import opened Utf8

  const BodyClose: string := "</body>"
  const HtmlClose: string := "</html>"

  /** The polling client, byte for byte as the server embeds it. */
  const LiveReloadScript: string :=
    "\n" +
    "<script>\n" +
    "(function() {\n" +
    "    let lastFileStates = {};\n" +
    "    \n" +
    "    function checkForChanges() {\n" +
    "        fetch('/live-reload-check')\n" +
    "            .then(response => response.json())\n" +
    "            .then(fileStates => {\n" +
    "                if (Object.keys(lastFileStates).length === 0) {\n" +
    "                    lastFileStates = fileStates;\n" +
    "                    return;\n" +
    "                }\n" +
    "                \n" +
    "                // Check if any files have changed\n" +
    "                for (const [file, mtime] of Object.entries(fileStates)) {\n" +
    "                    if (lastFileStates[file] !== mtime) {\n" +
    "                        console.log('File changed:', file, 'Reloading...');\n" +
    "                        window.location.reload();\n" +
    "                        return;\n" +
    "                    }\n" +
    "                }\n" +
    "                \n" +
    "                lastFileStates = fileStates;\n" +
    "            })\n" +
    "            .catch(error => {\n" +
    "                console.log('Live reload check failed:', error);\n" +
    "            });\n" +
    "    }\n" +
    "    \n" +
    "    // Check every 1 second for file changes\n" +
    "    setInterval(checkForChanges, 1000);\n" +
    "    console.log('\U{1F504} Live reload enabled - files will auto-refresh when changed');\n" +
    "})();\n" +
    "</script>"

  /** Where the script went. */
  datatype Placement = BeforeBodyClose | BeforeHtmlClose | Appended

  /** `</body>` wins over `</html>`; without either the script is appended. */
  function PlacementFor(content: string): Placement
  {
    if Contains(content, BodyClose) then BeforeBodyClose
    else if Contains(content, HtmlClose) then BeforeHtmlClose
    else Appended
  }

  /** The closing tag the script is inserted before, for the two tag placements. */
  function AnchorTag(p: Placement): (tag: string)
    requires !p.Appended?
    ensures |tag| > 0
  {
    if p.BeforeBodyClose? then BodyClose else HtmlClose
  }

  /**
   * The splice of a script into a page: `content.replace(tag, script +
   * tag)` for the chosen tag, which puts a copy of the script before
   * every occurrence, or `content + script` when neither tag occurs.
   */
  function Splice(content: string, script: string): (r: string)
    ensures !Contains(content, BodyClose) && !Contains(content, HtmlClose) ==> r == content + script
    ensures |r| >= |content| + |script|
  {
    match PlacementFor(content)
    case Appended => content + script
    case p =>
      var tag := AnchorTag(p);
      ReplaceGrows(content, tag, script);
      ReplaceAll(content, tag, script + tag)
  }

  /** Inserting `script` before every occurrence of a tag that occurs adds at least one script. */
  lemma ReplaceGrows(content: string, tag: string, script: string)
    requires |tag| > 0 && Contains(content, tag)
    ensures |ReplaceAll(content, tag, script + tag)| >= |content| + |script|
  {
    var pieces := SplitOn(content, tag);
    SplitFindsIffContains(content, tag);
    SplitJoin(content, tag);
    JoinWidened(pieces, script, tag);
    assert (|pieces| - 1) * |script| >= |script|;
  }

  /** The page as the server sends it. */
  function Inject(content: string): string
  {
    Splice(content, LiveReloadScript)
  }

  /** How many copies of the script the splice inserts. */
  function Copies(content: string): nat
  {
    match PlacementFor(content)
    case Appended => 1
    case p => |SplitOn(content, AnchorTag(p))| - 1
  }

  /**
   * Splicing only adds text. With a tag placement the page is cut at
   * every occurrence of the tag into pieces free of that tag: the
   * original is the pieces joined by the tag, the result is the same
   * pieces joined by script + tag, and there is at least one cut. With
   * no tag at all the result is the original followed by one script.
   */
  lemma SpliceOnlyInserts(content: string, script: string)
    ensures PlacementFor(content).Appended? ==>
      !Contains(content, BodyClose) && !Contains(content, HtmlClose)
      && Splice(content, script) == content + script
    ensures !PlacementFor(content).Appended? ==>
      var tag := AnchorTag(PlacementFor(content));
      var pieces := SplitOn(content, tag);
      && |pieces| >= 2
      && JoinWith(pieces, tag) == content
      && Splice(content, script) == JoinWith(pieces, script + tag)
      && forall k :: 0 <= k < |pieces| ==> !Contains(pieces[k], tag)
  {
    var p := PlacementFor(content);
    if !p.Appended? {
      var tag := AnchorTag(p);
      SplitFindsIffContains(content, tag);
      SplitJoin(content, tag);
      SplitPiecesFree(content, tag);
    }
  }

  /** With `</body>` present the anchor is `</body>`, whatever `</html>` occurrences exist. */
  lemma BodyCloseTakesPrecedence(content: string, script: string)
    requires Contains(content, BodyClose)
    ensures Splice(content, script) == ReplaceAll(content, BodyClose, script + BodyClose)
    ensures Copies(content) >= 1
  {
    SplitFindsIffContains(content, BodyClose);
  }

  /** The page grows by exactly one script per inserted copy, and there is at least one copy. */
  lemma {:induction false} SpliceLength(content: string, script: string)
    ensures Copies(content) >= 1
    ensures |Splice(content, script)| == |content| + Copies(content) * |script|
  {
    var p := PlacementFor(content);
    if !p.Appended? {
      var tag := AnchorTag(p);
      SplitFindsIffContains(content, tag);
      SplitJoin(content, tag);
      JoinWidened(SplitOn(content, tag), script, tag);
    }
  }

  // ---------------------------------------------------------------------
  // Responses
  // ---------------------------------------------------------------------

  datatype Header = Header(name: string, value: string)

  /** A fully buffered response: status, headers in the order sent, body bytes. */
  datatype Response = Response(status: nat, headers: seq<Header>, body: seq<byte>)

  /**
   * Headers appended by the handler's `end_headers` override: the three
   * CORS headers, then a second `Content-Type` for paths ending in
   * `.html` (or the bare `/`).
   */
  function EndHeaders(path: string): (hs: seq<Header>)
    ensures |hs| == 3 || |hs| == 4
    ensures hs[0] == Header("Access-Control-Allow-Origin", "*")
    ensures hs[1] == Header("Access-Control-Allow-Methods", "GET, POST, OPTIONS")
    ensures hs[2] == Header("Access-Control-Allow-Headers", "*")
    ensures |hs| == 4 <==> EndsWith(path, ".html") || path == "/"
  {
    [ Header("Access-Control-Allow-Origin", "*"),
      Header("Access-Control-Allow-Methods", "GET, POST, OPTIONS"),
      Header("Access-Control-Allow-Headers", "*") ]
    + (if EndsWith(path, ".html") || path == "/" then [Header("Content-Type", "text/html; charset=utf-8")] else [])
  }

  /** Values of every header called `name`, in order. */
  function HeaderValues(hs: seq<Header>, name: string): seq<string>
  {
    if |hs| == 0 then []
    else (if hs[0].name == name then [hs[0].value] else []) + HeaderValues(hs[1..], name)
  }

  /**
   * The 200 response carrying a page text, as the handler writes it after
   * injection. `send_response` itself writes `Server` (the handler's
   * version string) and `Date` (the current time) first; both values are
   * inputs here.
   */
  function PageResponse(path: string, page: string, server: string, date: string): (r: Response)
    ensures Decode(r.body) == Some(page)
    ensures |r.headers| == (if EndsWith(path, ".html") || path == "/" then 8 else 7)
  {
    var body := Encode(page);
    DecodeEncode(page);
    Response(200,
      [ Header("Server", server),
        Header("Date", date),
        Header("Content-Type", "text/html; charset=utf-8"),
        Header("Content-Length", NatToDecimal(|body|)) ]
      + EndHeaders(path),
      body)
  }

  /**
   * The declared length is right: there is exactly one `Content-Length`
   * header, it is a decimal numeral whose value is the number of body
   * bytes, and the body is the UTF-8 encoding of the page.
   */
  lemma ContentLengthMatchesBody(path: string, page: string, server: string, date: string)
    ensures var resp := PageResponse(path, page, server, date);
      && resp.status == 200
      && |resp.headers| >= 2
      && resp.headers[0] == Header("Server", server)
      && resp.headers[1] == Header("Date", date)
      && |HeaderValues(resp.headers, "Content-Length")| == 1
      && AllDigits(HeaderValues(resp.headers, "Content-Length")[0])
      && DecimalValue(HeaderValues(resp.headers, "Content-Length")[0]) == |resp.body|
      && |resp.body| == EncodedLength(page)
      && Decode(resp.body) == Some(page)
  {
    var body := Encode(page);
    OneContentLength(path, server, date, NatToDecimal(|body|));
    DecimalRoundTrip(|body|);
    DecodeEncode(page);
  }

  /** Of the headers the page response sends, only one is `Content-Length`. */
  lemma OneContentLength(path: string, server: string, date: string, length: string)
    ensures HeaderValues(
              [ Header("Server", server),
                Header("Date", date),
                Header("Content-Type", "text/html; charset=utf-8"),
                Header("Content-Length", length) ]
              + EndHeaders(path), "Content-Length") == [length]
  {
    var sent := [Header("Server", server), Header("Date", date), Header("Content-Type", "text/html; charset=utf-8")];
    var rest := [Header("Content-Length", length)] + EndHeaders(path);
    var all := [ Header("Server", server),
                 Header("Date", date),
                 Header("Content-Type", "text/html; charset=utf-8"),
                 Header("Content-Length", length) ];
    assert all + EndHeaders(path) == sent + rest;
    HeaderValuesConcat(sent, rest, "Content-Length");
    NoHeaderNamed(sent, "Content-Length");
    NoHeaderNamed(EndHeaders(path), "Content-Length");
    assert rest[1..] == EndHeaders(path);
  }

  /** The values of a header in two runs of headers sent one after the other. */
  lemma {:induction false} HeaderValuesConcat(a: seq<Header>, b: seq<Header>, name: string)
    ensures HeaderValues(a + b, name) == HeaderValues(a, name) + HeaderValues(b, name)
  {
    if |a| > 0 {
      assert (a + b)[1..] == a[1..] + b;
      HeaderValuesConcat(a[1..], b, name);
    } else {
      assert a + b == b;
    }
  }

  lemma {:induction false} NoHeaderNamed(hs: seq<Header>, name: string)
    requires forall k :: 0 <= k < |hs| ==> hs[k].name != name
    ensures HeaderValues(hs, name) == []
  {
    if |hs| > 0 {
      NoHeaderNamed(hs[1..], name);
    }
  }

  // ---------------------------------------------------------------------
  // Routing of do_GET
  // ---------------------------------------------------------------------

  /** The page a bare `/` is rewritten to. */
  const DefaultFile: string := "etf_savings.html"
  const DefaultPage: string := "/" + DefaultFile
  const CheckEndpoint: string := "/live-reload-check"

  /** What `do_GET` does with a request path. */
  datatype Route =
    | SnapshotEndpoint
    | HtmlPage(servedPath: string, filePath: string)  // static response, then the injection attempt
    | StaticFile(servedPath: string)

  /** `path.lstrip('/')`. */
  function LStripSlash(path: string): (r: string)
    ensures |r| == 0 || r[0] != '/'
    ensures EndsWith(path, r)
  {
    if |path| > 0 && path[0] == '/' then LStripSlash(path[1..]) else path
  }

  function RouteFor(requestPath: string): (r: Route)
    ensures r.HtmlPage? ==>
      r.filePath == "public/" + LStripSlash(r.servedPath) && (EndsWith(r.servedPath, ".html") || r.servedPath == DefaultPage)
    ensures r.HtmlPage? && requestPath != "/" ==> r.servedPath == requestPath
    ensures r.StaticFile? ==> r.servedPath == requestPath
  {
    var path := if requestPath == "/" then DefaultPage else requestPath;
    if path == CheckEndpoint then SnapshotEndpoint
    else if EndsWith(path, ".html") || path == DefaultPage then HtmlPage(path, "public/" + LStripSlash(path))
    else StaticFile(path)
  }

  /** The bare `/` serves the default page, through the injector. */
  lemma RootServesDefaultPage()
    ensures RouteFor("/") == HtmlPage(DefaultPage, "public/" + DefaultFile)
  {
    assert DefaultPage[1..] == DefaultFile;
    OneLeadingSlash(DefaultPage);
  }

  /** A path with exactly one leading slash loses just that slash. */
  lemma OneLeadingSlash(path: string)
    requires |path| >= 2 && path[0] == '/' && path[1] != '/'
    ensures LStripSlash(path) == path[1..]
  {
  }

  /**
   * Only the exact check path reaches the snapshot endpoint, and every
   * path ending in `.html` is answered by the injector.
   */
  lemma RouteKinds(requestPath: string)
    ensures RouteFor(requestPath).SnapshotEndpoint? <==> requestPath == CheckEndpoint
    ensures requestPath != CheckEndpoint && EndsWith(requestPath, ".html") ==> RouteFor(requestPath).HtmlPage?
    ensures RouteFor(requestPath).StaticFile? ==> !EndsWith(requestPath, ".html") && requestPath != "/"
  {
  }

  /** The outcome of opening the page file as UTF-8 text. */
  datatype PageRead = Missing | Unreadable | Text(content: string)

  /**
   * The injection step for an HTML route: a missing file or a read or
   * decode failure leaves the already served static response as the
   * answer (`None`); readable text is answered with the injected page.
   */
  function ServeHtml(servedPath: string, read: PageRead, server: string, date: string): (r: Option<Response>)
    ensures r.Some? <==> read.Text?
    ensures read.Text? ==> Decode(r.value.body) == Some(Inject(read.content))
  {
    match read
    case Text(content) =>
      ContentLengthMatchesBody(servedPath, Inject(content), server, date);
      Some(PageResponse(servedPath, Inject(content), server, date))
    case _ => None
  }
}

=== FILE: js_utils.dfy ===
/**
 * The generic helpers of public/js/utils.js: German number parsing
 * (with the `parseFloat` it relies on, and the `parseInt` the phase
 * years go through), HTML escaping, `clamp`, the id-based array helpers
 * and the letter ids of the scenario lists. JavaScript numbers are exact reals here (no
 * binary64 rounding), plus the two infinities and NaN.
 */
module JsUtils {
  import opened Wrappers
  import opened Strings

  datatype JsNumber = Finite(r: real) | PosInfinity | NegInfinity | NaN

  /** The argument kinds `parseGermanNumber` tells apart with `typeof`. */
  datatype JsValue = Num(n: JsNumber) | Str(s: string) | Other

  // ---------------------------------------------------------------------
  // parseFloat (section 19.2.4 of ECMA-262)
  // ---------------------------------------------------------------------

  /** Length of the run of decimal digits at the start of `s`. */
  function DigitRun(s: string): (n: nat)
    ensures n <= |s|
    ensures AllDigits(s[..n])
    ensures n < |s| ==> !IsDigit(s[n])
  {
    if |s| == 0 || !IsDigit(s[0]) then 0
    else
      var n := 1 + DigitRun(s[1..]);
      assert s[..n] == [s[0]] + s[1..][..n - 1];
      n
  }

  function Pow10(e: nat): (p: nat)
    ensures p >= 1
  {
    if e == 0 then 1 else 10 * Pow10(e - 1)
  }

  /** `m * 10^e` for a signed exponent. */
  function Scale(m: nat, e: int): real
  {
    if e >= 0 then (m * Pow10(e)) as real else m as real / Pow10(-e) as real
  }

  /**
   * Value of an exponent part `e`/`E`, optional sign, at least one digit
   * at the start of `s`; 0 when there is no complete exponent part there
   * (which the longest-prefix rule then leaves unread).
   */
  function ExponentAt(s: string): int
  {
    if |s| == 0 || (s[0] != 'e' && s[0] != 'E') then 0
    else
      var rest := s[1..];
      var neg := |rest| > 0 && rest[0] == '-';
      var digits := if |rest| > 0 && (rest[0] == '+' || rest[0] == '-') then rest[1..] else rest;
      var n := DigitRun(digits);
      if n == 0 then 0
      else
        var v: int := DecimalValue(digits[..n]);
        if neg then -v else v
  }

  /** The parts of an unsigned decimal literal: `whole.fraction` times `10^exponent`. */
  datatype DecimalLiteral = DecimalLiteral(whole: string, fraction: string, exponent: int)

  predicate ValidLiteral(lit: DecimalLiteral) {
    AllDigits(lit.whole) && AllDigits(lit.fraction) && (|lit.whole| > 0 || |lit.fraction| > 0)
  }

  /**
   * The longest prefix of `u` of the form digits [`.` digits] [exponent]
   * with at least one digit before the exponent part. There is one
   * exactly when `u` starts with a digit or with a point and a digit.
   */
  function ScanDecimal(u: string): (r: Option<DecimalLiteral>)
    ensures r.Some? ==> ValidLiteral(r.value)
    ensures r.Some? <==> |u| > 0 && (IsDigit(u[0]) || (u[0] == '.' && |u| > 1 && IsDigit(u[1])))
  {
    var i := DigitRun(u);
    var hasDot := i < |u| && u[i] == '.';
    var f := if hasDot then DigitRun(u[i + 1..]) else 0;
    if i == 0 && f == 0 then None
    else
      var after := if hasDot then i + 1 + f else i;
      Some(DecimalLiteral(u[..i], if hasDot then u[i + 1..][..f] else "", ExponentAt(u[after..])))
  }

  /** The exact value a literal denotes. */
  function LiteralValue(lit: DecimalLiteral): real
    requires ValidLiteral(lit)
  {
    var f := |lit.fraction|;
    Scale(DecimalValue(lit.whole) * Pow10(f) + DecimalValue(lit.fraction), lit.exponent - f)
  }

  /**
   * The common start of `parseFloat` and `parseInt`: leading white space
   * skipped, then an optional sign; the rest follows.
   */
  function SignAndBody(s: string): (r: (bool, string))
    ensures |r.1| <= |s|
    ensures |s| > 0 && IsDigit(s[0]) ==> r == (false, s)
  {
    var t := s[TrimStartIndex(s)..];
    if |t| > 0 && (t[0] == '+' || t[0] == '-') then (t[0] == '-', t[1..]) else (false, t)
  }

  /**
   * `parseFloat(s)`: skip leading white space, read an optional sign,
   * then `Infinity` or an unsigned decimal prefix; NaN when neither is
   * there.
   */
  function ParseFloat(s: string): (r: JsNumber)
    ensures var u := SignAndBody(s).1;
      r == NaN <==> !StartsWith(u, "Infinity") && !(|u| > 0 && (IsDigit(u[0]) || (u[0] == '.' && |u| > 1 && IsDigit(u[1]))))
    ensures r.PosInfinity? || r.NegInfinity? ==> StartsWith(SignAndBody(s).1, "Infinity")
    ensures r.NegInfinity? ==> SignAndBody(s).0
  {
    var (negative, u) := SignAndBody(s);
    if StartsWith(u, "Infinity") then (if negative then NegInfinity else PosInfinity)
    else
      match ScanDecimal(u)
      case None => NaN
      case Some(lit) =>
        var magnitude := LiteralValue(lit);
        Finite(if negative then -magnitude else magnitude)
  }

  /** A string that starts with a digit is read as a number, unsigned. */
  lemma ParseFloatOfDigitStart(s: string)
    requires |s| > 0 && IsDigit(s[0])
    ensures ScanDecimal(s).Some?
    ensures ParseFloat(s) == Finite(LiteralValue(ScanDecimal(s).value))
  {
    assert s[TrimStartIndex(s)..] == s;
    assert !StartsWith(s, "Infinity");
  }

  /** `parseFloat(String(n))` is `n` for every natural number. */
  lemma ParseFloatReadsDecimal(n: nat)
    ensures ParseFloat(NatToDecimal(n)) == Finite(n as real)
  {
    var s := NatToDecimal(n);
    ParseFloatOfDigitStart(s);
    DigitRunOfDigits(s);
    assert s[..|s|] == s;
    assert s[|s|..] == "";
    assert ScanDecimal(s) == Some(DecimalLiteral(s, "", 0));
    DecimalRoundTrip(n);
  }

  /**
   * `parseInt(s, 10)`: white space, an optional sign and the longest run
   * of decimal digits; `None` stands for NaN (no digit there).
   */
  function ParseInt(s: string): (r: Option<int>)
    ensures r.Some? <==> DigitRun(SignAndBody(s).1) > 0
  {
    var (negative, u) := SignAndBody(s);
    var n := DigitRun(u);
    if n == 0 then None
    else
      var v: int := DecimalValue(u[..n]);
      Some(if negative then -v else v)
  }

  /** `parseInt(String(n), 10)` is `n` for every natural number. */
  lemma ParseIntReadsDecimal(n: nat)
    ensures ParseInt(NatToDecimal(n)) == Some(n)
  {
    var s := NatToDecimal(n);
    DigitRunOfDigits(s);
    assert s[..|s|] == s;
    DecimalRoundTrip(n);
  }

  /** Whatever `parseInt` reads as a number, `parseFloat` reads as a finite number. */
  lemma ParseIntThenFloatFinite(s: string)
    requires ParseInt(s).Some?
    ensures ParseFloat(s).Finite?
  {
    var (negative, u) := SignAndBody(s);
    assert IsDigit(u[0]);
    assert !StartsWith(u, "Infinity");
  }

  lemma {:induction false} DigitRunOfDigits(s: string)
    requires AllDigits(s)
    ensures DigitRun(s) == |s|
  {
    if |s| > 0 {
      DigitRunOfDigits(s[1..]);
    }
  }

  // ---------------------------------------------------------------------
  // parseGermanNumber
  // ---------------------------------------------------------------------

  /** `value.replace(/\./g, '')`: every thousands dot removed. */
  function RemoveDots(s: string): string
  {
    if |s| == 0 then ""
    else if s[0] == '.' then RemoveDots(s[1..])
    else [s[0]] + RemoveDots(s[1..])
  }

  /** No dot survives, nothing else is dropped, and the commas stay. */
  lemma {:induction false} RemoveDotsShape(s: string)
    ensures '.' !in RemoveDots(s)
    ensures |RemoveDots(s)| == |s| - CountChar(s, '.')
    ensures CountChar(RemoveDots(s), ',') == CountChar(s, ',')
  {
    if |s| > 0 {
      RemoveDotsShape(s[1..]);
    }
  }

  /** `s.replace(',', '.')`: only the first comma becomes a dot. */
  function FirstCommaToDot(s: string): string
  {
    if |s| == 0 then ""
    else if s[0] == ',' then ['.'] + s[1..]
    else [s[0]] + FirstCommaToDot(s[1..])
  }

  /** Exactly one comma turns into a dot when there is one; otherwise nothing changes. */
  lemma {:induction false} FirstCommaShape(s: string)
    ensures |FirstCommaToDot(s)| == |s|
    ensures ',' in s ==> CountChar(FirstCommaToDot(s), '.') == CountChar(s, '.') + 1
    ensures ',' in s ==> CountChar(FirstCommaToDot(s), ',') == CountChar(s, ',') - 1
    ensures ',' !in s ==> FirstCommaToDot(s) == s
  {
    if |s| > 0 {
      FirstCommaShape(s[1..]);
      if s[0] == ',' {
        assert s[1..] == FirstCommaToDot(s)[1..];
      }
    }
  }

  /** The German-to-JavaScript rewrite: `1.234,56` becomes `1234.56`. */
  function NormalizeGerman(s: string): string
  {
    FirstCommaToDot(RemoveDots(s))
  }

  /**
   * After the rewrite there is at most one dot, and there is one exactly
   * when the input had a comma; only the thousands dots are dropped.
   */
  lemma NormalizeGermanShape(s: string)
    ensures CountChar(NormalizeGerman(s), '.') <= 1
    ensures CountChar(NormalizeGerman(s), '.') == 1 <==> ',' in s
    ensures |NormalizeGerman(s)| == |s| - CountChar(s, '.')
  {
    var noDots := RemoveDots(s);
    RemoveDotsShape(s);
    FirstCommaShape(noDots);
    assert ',' in s <==> ',' in noDots;
  }

  /** `parseGermanNumber(value)`. */
  function ParseGermanNumber(v: JsValue): (r: JsNumber)
    ensures v.Num? ==> r == v.n
    ensures v.Other? ==> r == Finite(0.0)
    ensures v.Str? ==> r != NaN
  {
    match v
    case Num(n) => n
    case Other => Finite(0.0)
    case Str(s) =>
      var parsed := ParseFloat(NormalizeGerman(s));
      if parsed.NaN? then Finite(0.0) else parsed
  }

  /** A plain digit string reads as its value. */
  lemma PlainNumberReadsAsItself(n: nat)
    ensures ParseGermanNumber(Str(NatToDecimal(n))) == Finite(n as real)
  {
    var s := NatToDecimal(n);
    NoDotsNoCommas(s);
    ParseFloatReadsDecimal(n);
  }

  lemma {:induction false} DigitsHaveNoDots(s: string)
    requires AllDigits(s)
    ensures RemoveDots(s) == s
  {
    if |s| > 0 {
      DigitsHaveNoDots(s[1..]);
      assert s == [s[0]] + s[1..];
    }
  }

  lemma NoDotsNoCommas(s: string)
    requires AllDigits(s)
    ensures NormalizeGerman(s) == s
  {
    DigitsHaveNoDots(s);
    FirstCommaShape(s);
  }

  lemma {:induction false} RemoveDotsConcat(a: string, b: string)
    ensures RemoveDots(a + b) == RemoveDots(a) + RemoveDots(b)
  {
    if |a| > 0 {
      assert (a + b)[0] == a[0];
      assert (a + b)[1..] == a[1..] + b;
      RemoveDotsConcat(a[1..], b);
    } else {
      assert a + b == b;
    }
  }

  /** A thousands dot anywhere in the text is ignored. */
  lemma ThousandsDotIgnored(a: string, b: string)
    ensures NormalizeGerman(a + "." + b) == NormalizeGerman(a + b)
    ensures ParseGermanNumber(Str(a + "." + b)) == ParseGermanNumber(Str(a + b))
  {
    RemoveDotsConcat(a + ".", b);
    RemoveDotsConcat(a, ".");
    RemoveDotsConcat(a, b);
    assert RemoveDots(".") == "";
    assert RemoveDots(a + "." + b) == RemoveDots(a + b);
  }

  lemma {:induction false} DigitRunStops(a: string, rest: string)
    requires AllDigits(a)
    requires |rest| > 0 && !IsDigit(rest[0])
    ensures DigitRun(a + rest) == |a|
  {
    if |a| > 0 {
      assert (a + rest)[1..] == a[1..] + rest;
      DigitRunStops(a[1..], rest);
    } else {
      assert a + rest == rest;
    }
  }

  lemma {:induction false} FirstCommaAfterDigits(a: string, b: string)
    requires AllDigits(a)
    ensures FirstCommaToDot(a + "," + b) == a + "." + b
  {
    if |a| > 0 {
      assert (a + "," + b)[1..] == a[1..] + "," + b;
      FirstCommaAfterDigits(a[1..], b);
    } else {
      assert a + "," + b == [','] + b;
    }
  }

  lemma CommaBecomesPoint(a: string, b: string)
    requires AllDigits(a) && AllDigits(b)
    ensures NormalizeGerman(a + "," + b) == a + "." + b
  {
    RemoveDotsConcat(a + ",", b);
    RemoveDotsConcat(a, ",");
    DigitsHaveNoDots(a);
    DigitsHaveNoDots(b);
    assert RemoveDots(",") == ",";
    assert RemoveDots(a + "," + b) == a + "," + b;
    FirstCommaAfterDigits(a, b);
  }

  lemma FractionSum(whole: nat, frac: nat, p: nat)
    requires p >= 1
    ensures (whole * p + frac) as real / p as real == whole as real + frac as real / p as real
  {
  }

  lemma ScaleDown(m: nat, e: nat)
    ensures Scale(m, -(e as int)) == m as real / Pow10(e) as real
  {
    if e == 0 {
      assert Pow10(0) == 1;
    }
  }

  /** `whole` followed by `e` fraction digits of value `frac`, scaled back by `10^e`. */
  lemma ScaledFraction(whole: nat, frac: nat, e: nat)
    ensures Scale(whole * Pow10(e) + frac, -(e as int)) == whole as real + frac as real / Pow10(e) as real
  {
    var p := Pow10(e);
    ScaleDown(whole * p + frac, e);
    FractionSum(whole, frac, p);
  }

  lemma PointSplits(a: string, b: string)
    requires |a| > 0 && AllDigits(a) && AllDigits(b)
    ensures var u := a + "." + b;
      DigitRun(u) == |a| && u[|a|] == '.' && u[|a| + 1..] == b && u[..|a|] == a && DigitRun(b) == |b|
  {
    assert a + "." + b == a + ("." + b);
    DigitRunStops(a, "." + b);
    DigitRunOfDigits(b);
  }

  /** Digits, a point and digits scan as one literal without exponent. */
  lemma ScanPointLiteral(a: string, b: string)
    requires |a| > 0 && AllDigits(a) && AllDigits(b)
    ensures ScanDecimal(a + "." + b) == Some(DecimalLiteral(a, b, 0))
  {
    var u := a + "." + b;
    PointSplits(a, b);
    assert u[|a| + 1..][..|b|] == b;
    assert u[|a| + 1 + |b|..] == "";
  }

  /** The literal `a.b` denotes `a` plus `b` divided by ten to the number of digits of `b`. */
  lemma FractionValue(a: string, b: string)
    requires |a| > 0 && AllDigits(a) && AllDigits(b)
    ensures LiteralValue(DecimalLiteral(a, b, 0)) == DecimalValue(a) as real + DecimalValue(b) as real / Pow10(|b|) as real
  {
    ScaledFraction(DecimalValue(a), DecimalValue(b), |b|);
  }

  lemma PointReadsAsFraction(a: string, b: string)
    requires |a| > 0 && AllDigits(a) && AllDigits(b)
    ensures ParseFloat(a + "." + b) == Finite(LiteralValue(DecimalLiteral(a, b, 0)))
  {
    ScanPointLiteral(a, b);
    ParseFloatOfDigitStart(a + "." + b);
  }

  /**
   * The decimal comma: digits, a comma and digits read as the literal
   * with a point in its place, whose value `FractionValue` gives.
   */
  lemma DecimalCommaReadsAsFraction(a: string, b: string)
    requires |a| > 0 && AllDigits(a) && AllDigits(b)
    ensures ParseGermanNumber(Str(a + "," + b)) == Finite(LiteralValue(DecimalLiteral(a, b, 0)))
  {
    CommaBecomesPoint(a, b);
    PointReadsAsFraction(a, b);
  }

  /** Text that does not start with a number reads as 0. */
  lemma TextReadsAsZero(s: string)
    requires |s| > 0 ==> 'a' <= s[0] <= 'z'
    ensures ParseGermanNumber(Str(s)) == Finite(0.0)
  {
    var n := NormalizeGerman(s);
    if |s| > 0 {
      assert RemoveDots(s) == [s[0]] + RemoveDots(s[1..]);
      assert n[0] == s[0];
      assert n[TrimStartIndex(n)..] == n;
      assert !StartsWith(n, "Infinity");
    }
  }

  // ---------------------------------------------------------------------
  // escapeHtml
  // ---------------------------------------------------------------------

  predicate IsHtmlSpecial(c: char) {
    c == '&' || c == '<' || c == '>' || c == '"' || c == '\''
  }

  /** The replacement for one character. */
  function EscapeChar(c: char): (e: string)
    ensures IsHtmlSpecial(c) ==> |e| >= 4 && e[0] == '&'
    ensures !IsHtmlSpecial(c) ==> e == [c]
  {
    if c == '&' then "&amp;"
    else if c == '<' then "&lt;"
    else if c == '>' then "&gt;"
    else if c == '"' then "&quot;"
    else if c == '\'' then "&#039;"
    else [c]
  }

  /** `escapeHtml(text)`. */
  function EscapeHtml(s: string): (r: string)
    ensures forall k :: 0 <= k < |r| ==> r[k] != '<' && r[k] != '>' && r[k] != '"' && r[k] != '\''
    ensures |r| >= |s|
    ensures (forall k :: 0 <= k < |s| ==> !IsHtmlSpecial(s[k])) ==> r == s
  {
    if |s| == 0 then ""
    else
      var head := EscapeChar(s[0]);
      var r := head + EscapeHtml(s[1..]);
      assert forall k :: 0 <= k < |head| ==> head[k] != '<' && head[k] != '>' && head[k] != '"' && head[k] != '\'';
      r
  }

  /** Escaping is done character by character: it distributes over concatenation. */
  lemma {:induction false} EscapeConcat(a: string, b: string)
    ensures EscapeHtml(a + b) == EscapeHtml(a) + EscapeHtml(b)
  {
    if |a| > 0 {
      assert (a + b)[1..] == a[1..] + b;
      assert (a + b)[0] == a[0];
      EscapeConcat(a[1..], b);
    } else {
      assert a + b == b;
    }
  }

  /** The character an entity at the start of `s` stands for, with the entity's length. */
  function EntityAt(s: string): Option<(char, nat)>
  {
    if StartsWith(s, "&amp;") then Some(('&', 5))
    else if StartsWith(s, "&lt;") then Some(('<', 4))
    else if StartsWith(s, "&gt;") then Some(('>', 4))
    else if StartsWith(s, "&quot;") then Some(('"', 6))
    else if StartsWith(s, "&#039;") then Some(('\'', 6))
    else None
  }

  /** Reads the five entities back; every other character stands for itself. */
  function UnescapeHtml(s: string): string
    decreases |s|
  {
    if |s| == 0 then ""
    else if s[0] != '&' then [s[0]] + UnescapeHtml(s[1..])
    else
      match EntityAt(s)
      case Some((c, n)) => if n <= |s| then [c] + UnescapeHtml(s[n..]) else ""
      case None => [s[0]] + UnescapeHtml(s[1..])
  }

  lemma EntityOfEscape(c: char, rest: string)
    requires IsHtmlSpecial(c)
    ensures EntityAt(EscapeChar(c) + rest) == Some((c, |EscapeChar(c)|))
  {
    var t := EscapeChar(c) + rest;
    if c == '&' {
      assert t[..5] == "&amp;";
    } else if c == '<' {
      assert t[1] == 'l';
      assert t[..4] == "&lt;";
    } else if c == '>' {
      assert t[1] == 'g';
      assert t[..4] == "&gt;";
    } else if c == '"' {
      assert t[1] == 'q';
      assert t[..6] == "&quot;";
    } else {
      assert t[1] == '#';
      assert t[..6] == "&#039;";
    }
  }

  lemma UnescapeHead(c: char, rest: string)
    ensures UnescapeHtml(EscapeChar(c) + rest) == [c] + UnescapeHtml(rest)
  {
    var t := EscapeChar(c) + rest;
    if IsHtmlSpecial(c) {
      EntityOfEscape(c, rest);
      assert t[|EscapeChar(c)|..] == rest;
    } else {
      assert t[1..] == rest;
    }
  }

  /** Nothing is lost: unescaping the escaped text gives the text back. */
  lemma {:induction false} UnescapeEscape(s: string)
    ensures UnescapeHtml(EscapeHtml(s)) == s
  {
    if |s| > 0 {
      UnescapeHead(s[0], EscapeHtml(s[1..]));
      UnescapeEscape(s[1..]);
      assert s == [s[0]] + s[1..];
    }
  }

  // ---------------------------------------------------------------------
  // clamp, findById, removeById
  // ---------------------------------------------------------------------

  /** `a <= b` for two numbers, false whenever either is NaN. */
  predicate NumLe(a: JsNumber, b: JsNumber) {
    a != NaN && b != NaN
    && (a == NegInfinity || b == PosInfinity || (a.Finite? && b.Finite? && a.r <= b.r))
  }

  /** `Math.max(a, b)`: NaN if either is NaN. */
  function MathMax(a: JsNumber, b: JsNumber): JsNumber {
    if a == NaN || b == NaN then NaN else if NumLe(a, b) then b else a
  }

  /** `Math.min(a, b)`: NaN if either is NaN. */
  function MathMin(a: JsNumber, b: JsNumber): JsNumber {
    if a == NaN || b == NaN then NaN else if NumLe(a, b) then a else b
  }

  /**
   * `clamp(value, min, max)` = `Math.min(Math.max(value, min), max)`: a
   * NaN anywhere gives NaN; otherwise the value is pulled into
   * `[min, max]`, and `max` wins when the bounds cross.
   */
  function Clamp(v: JsNumber, lo: JsNumber, hi: JsNumber): (r: JsNumber)
    ensures r == NaN <==> v == NaN || lo == NaN || hi == NaN
    ensures v != NaN && NumLe(lo, hi) ==> NumLe(lo, r) && NumLe(r, hi)
    ensures NumLe(lo, v) && NumLe(v, hi) ==> r == v
    ensures NumLe(v, lo) && NumLe(lo, hi) ==> r == lo
    ensures v != NaN && lo != NaN && (NumLe(hi, v) || NumLe(hi, lo)) ==> r == hi
  {
    MathMin(MathMax(v, lo), hi)
  }

  /** `array.findIndex(item => item.id === id)`, `None` for -1. */
  function FindIndex<T, K(==)>(items: seq<T>, idOf: T -> K, id: K): (r: Option<nat>)
    ensures r.Some? ==> r.value < |items| && idOf(items[r.value]) == id
    ensures r.Some? ==> forall j :: 0 <= j < r.value ==> idOf(items[j]) != id
    ensures r.None? ==> forall j :: 0 <= j < |items| ==> idOf(items[j]) != id
  {
    if |items| == 0 then None
    else if idOf(items[0]) == id then Some(0)
    else
      match FindIndex(items[1..], idOf, id)
      case None => None
      case Some(k) => Some(k + 1)
  }

  /** `findById(array, id)`: the first item with that id. */
  function FindById<T, K(==)>(items: seq<T>, idOf: T -> K, id: K): (r: Option<T>)
    ensures r.Some? <==> exists j :: 0 <= j < |items| && idOf(items[j]) == id
    ensures r.Some? ==> idOf(r.value) == id
    ensures r.Some? ==> exists k :: 0 <= k < |items| && r.value == items[k] && idOf(items[k]) == id &&
                                    forall j :: 0 <= j < k ==> idOf(items[j]) != id
  {
    match FindIndex(items, idOf, id)
    case None => None
    case Some(k) => Some(items[k])
  }

  /** `String.fromCharCode(65 + n)`, the id both scenario lists give their next entry: A for 0, B for 1, ... */
  function LetterId(n: nat): (id: string)
    requires n < 26
    ensures |id| == 1 && 'A' <= id[0] <= 'Z'
  {
    [(65 + n) as char]
  }

  /** Different list lengths give different ids. */
  lemma LetterIdInjective(m: nat, n: nat)
    requires m < 26 && n < 26 && m != n
    ensures LetterId(m) != LetterId(n)
  {
    assert LetterId(m)[0] != LetterId(n)[0];
  }

  /** Number of items carrying `id`. */
  function CountId<T, K(==)>(items: seq<T>, idOf: T -> K, id: K): nat
  {
    if |items| == 0 then 0 else (if idOf(items[0]) == id then 1 else 0) + CountId(items[1..], idOf, id)
  }

  /** `removeById(array, id)`: `array.filter(item => item.id !== id)`. */
  function RemoveById<T, K(==)>(items: seq<T>, idOf: T -> K, id: K): (r: seq<T>)
    ensures forall j :: 0 <= j < |r| ==> idOf(r[j]) != id
    ensures |r| == |items| - CountId(items, idOf, id)
  {
    if |items| == 0 then []
    else if idOf(items[0]) == id then RemoveById(items[1..], idOf, id)
    else [items[0]] + RemoveById(items[1..], idOf, id)
  }

  /** The filter works item by item, so the survivors keep their order. */
  lemma {:induction false} RemoveByIdConcat<T, K>(a: seq<T>, b: seq<T>, idOf: T -> K, id: K)
    ensures RemoveById(a + b, idOf, id) == RemoveById(a, idOf, id) + RemoveById(b, idOf, id)
  {
    if |a| > 0 {
      assert (a + b)[1..] == a[1..] + b;
      assert (a + b)[0] == a[0];
      RemoveByIdConcat(a[1..], b, idOf, id);
    } else {
      assert a + b == b;
    }
  }

  /** Every item with another id survives the filter. */
  lemma {:induction false} RemoveKeepsOthers<T, K>(items: seq<T>, idOf: T -> K, id: K, x: T)
    requires x in items && idOf(x) != id
    ensures x in RemoveById(items, idOf, id)
  {
    if items[0] != x {
      RemoveKeepsOthers(items[1..], idOf, id, x);
    }
  }

  /** Removing an id nobody carries returns the list unchanged. */
  lemma {:induction false} RemoveAbsentId<T, K>(items: seq<T>, idOf: T -> K, id: K)
    requires forall j :: 0 <= j < |items| ==> idOf(items[j]) != id
    ensures RemoveById(items, idOf, id) == items
  {
    if |items| > 0 {
      RemoveAbsentId(items[1..], idOf, id);
      assert items == [items[0]] + items[1..];
    }
  }
}

=== FILE: param_tree.dfy ===
/**
 * The nested `parameters` object of a comparison scenario and the two
 * dotted-path accessors of public/js/features/scenarioComparison.js:
 * `updateScenarioParameter` writes a leaf, `getParameterValue` reads one.
 * The file runs in strict mode, so writing a property of a missing or
 * primitive intermediate value throws a `TypeError`.
 */
module ParamTree {
  import opened Wrappers
  import opened Strings

  /** A parameter value: a number, a checkbox state, or a nested object. */
  datatype Param = Num(n: real) | Flag(b: bool) | Group(children: map<string, Param>)

  /** The `TypeError` a write through `undefined` or a primitive throws. */
  datatype TypeError = TypeError

  /** `path.split('.')`. */
  function Segments(path: string): (parts: seq<string>)
    ensures |parts| >= 1
  {
    SplitOn(path, ".")
  }

  /**
   * The value reached by following `parts`, as `getParameterValue`
   * walks it: a missing key (including any key of a number or a flag)
   * reads as 0.
   */
  function GetAt(node: Param, parts: seq<string>): (r: Param)
    ensures |parts| > 0 && !node.Group? ==> r == Num(0.0)
    ensures |parts| == 0 ==> r == node
    decreases |parts|
  {
    if |parts| == 0 then node
    else
      match node
      case Group(m) => if parts[0] in m then GetAt(m[parts[0]], parts[1..]) else Num(0.0)
      case _ => Num(0.0)
  }

  /**
   * Once the walk reaches a value that is not an object, or an object
   * without the next key, the whole path reads as 0, whatever follows.
   */
  lemma {:induction false} MissingKeyReadsZero(node: Param, parts: seq<string>, k: nat)
    requires k < |parts|
    requires !GetAt(node, parts[..k]).Group? || parts[k] !in GetAt(node, parts[..k]).children
    ensures GetAt(node, parts) == Num(0.0)
    decreases k
  {
    if k > 0 && node.Group? && parts[0] in node.children {
      assert parts[..k][1..] == parts[1..][..k - 1];
      MissingKeyReadsZero(node.children[parts[0]], parts[1..], k - 1);
    }
  }

  /** Every path but the last segment: where the write lands. */
  function Parent(parts: seq<string>): seq<string>
    requires |parts| >= 1
  {
    parts[..|parts| - 1]
  }

  /**
   * The walk of `updateScenarioParameter`: follow all but the last
   * segment, then assign the last one. It throws unless the parent
   * path leads to an object; the object then gains or replaces the key.
   */
  function SetAt(node: Param, parts: seq<string>, value: Param): (r: Result<Param, TypeError>)
    requires |parts| >= 1
    ensures r.Success? <==> GetAt(node, Parent(parts)).Group?
    ensures r.Success? ==> r.value.Group?
    decreases |parts|
  {
    if !node.Group? then Failure(TypeError)
    else
      var m := node.children;
      if |parts| == 1 then Success(Group(m[parts[0] := value]))
      else if parts[0] !in m then Failure(TypeError)
      else
        assert Parent(parts[1..]) == Parent(parts)[1..];
        match SetAt(m[parts[0]], parts[1..], value)
        case Success(child) => Success(Group(m[parts[0] := child]))
        case Failure(e) => Failure(e)
  }

  /** Reading the path just written returns the written value. */
  lemma {:induction false} GetAfterSet(node: Param, parts: seq<string>, value: Param)
    requires |parts| >= 1
    requires SetAt(node, parts, value).Success?
    ensures GetAt(SetAt(node, parts, value).value, parts) == value
  {
    if |parts| > 1 {
      GetAfterSet(node.children[parts[0]], parts[1..], value);
    }
  }

  /** Two paths part ways at some segment: neither is a prefix of the other. */
  predicate Diverge(p: seq<string>, q: seq<string>) {
    exists i :: 0 <= i < |p| && i < |q| && p[i] != q[i]
  }

  /** A write changes no leaf on a path that parts from the written one. */
  lemma {:induction false} SetLeavesOtherPaths(node: Param, parts: seq<string>, value: Param, other: seq<string>)
    requires |parts| >= 1
    requires SetAt(node, parts, value).Success?
    requires Diverge(parts, other)
    ensures GetAt(SetAt(node, parts, value).value, other) == GetAt(node, other)
  {
    var i :| 0 <= i < |parts| && i < |other| && parts[i] != other[i];
    if i > 0 && |parts| > 1 {
      assert other[0] == parts[0] || other[0] != parts[0];
      if other[0] == parts[0] {
        assert parts[1..][i - 1] != other[1..][i - 1];
        SetLeavesOtherPaths(node.children[parts[0]], parts[1..], value, other[1..]);
      }
    }
  }

  /** A successful write leaves its parent path leading to an object, so a sibling can be written next. */
  lemma {:induction false} SetKeepsParent(node: Param, parts: seq<string>, value: Param)
    requires |parts| >= 1
    requires SetAt(node, parts, value).Success?
    ensures GetAt(SetAt(node, parts, value).value, Parent(parts)).Group?
  {
    if |parts| > 1 {
      assert Parent(parts[1..]) == Parent(parts)[1..];
      SetKeepsParent(node.children[parts[0]], parts[1..], value);
    }
  }

  /** Writing twice is writing once. */
  lemma {:induction false} SetIdempotent(node: Param, parts: seq<string>, value: Param)
    requires |parts| >= 1
    requires SetAt(node, parts, value).Success?
    ensures SetAt(SetAt(node, parts, value).value, parts, value) == SetAt(node, parts, value)
  {
    var m := node.children;
    if |parts| > 1 {
      SetIdempotent(m[parts[0]], parts[1..], value);
      var child := SetAt(m[parts[0]], parts[1..], value).value;
      assert m[parts[0] := child][parts[0] := child] == m[parts[0] := child];
    } else {
      assert m[parts[0] := value][parts[0] := value] == m[parts[0] := value];
    }
  }

  // ---------------------------------------------------------------------
  // Splitting a two-segment path
  // ---------------------------------------------------------------------

  /** A segment without a dot is not split. */
  lemma {:induction false} SplitWithoutDot(s: string)
    requires forall k :: 0 <= k < |s| ==> s[k] != '.'
    ensures SplitOn(s, ".") == [s]
  {
    if |s| >= 1 {
      assert s[..1] == [s[0]];
      SplitWithoutDot(s[1..]);
      assert [s[0]] + s[1..] == s;
    }
  }

  /** `"a.b".split('.')` is `["a", "b"]` for dot-free `a` and `b`. */
  lemma {:induction false} SplitTwoSegments(a: string, b: string)
    requires forall k :: 0 <= k < |a| ==> a[k] != '.'
    requires forall k :: 0 <= k < |b| ==> b[k] != '.'
    ensures Segments(a + "." + b) == [a, b]
  {
    if |a| == 0 {
      assert a + "." + b == "." + b;
      assert ("." + b)[..1] == ".";
      assert ("." + b)[1..] == b;
      SplitWithoutDot(b);
    } else {
      var s := a + "." + b;
      assert s[0] == a[0];
      assert s[..1] == [a[0]];
      assert s[1..] == a[1..] + "." + b;
      SplitTwoSegments(a[1..], b);
      assert [s[0]] + a[1..] == a;
    }
  }
}

=== FILE: phase_editor.dfy ===
/**
 * The multi-phase savings-plan editor of one accumulation scenario
 * (public/js/ui/setup/setupScenarios.js). The three phase panels become
 * three slots; each input holds the value its handler reads from it
 * (`parseInt(value) || 0` for the years, the parsed rate for the
 * savings rate).
 */
module PhaseEditor {

  datatype Slot = Slot(active: bool, startYear: int, endYear: int, savingsRate: real)

  /** The three phase panels; phase `p` is at index `p - 1`. */
  type Slots = s: seq<Slot> | |s| == 3 witness [Slot(true, 1, 1, 0.0), Slot(false, 0, 0, 0.0), Slot(false, 0, 0, 0.0)]

  /** Everything except slot `i` is as before. */
  predicate OthersUnchanged(before: Slots, after: Slots, i: int) {
    forall k :: 0 <= k < 3 && k != i ==> after[k] == before[k]
  }

  /** Raises the end year of a slot to `start` when it lies before it. */
  function SnapEnd(s: Slot, start: int): (r: Slot)
    ensures r.endYear >= start
    ensures r.endYear >= s.endYear
    ensures r.endYear == (if s.endYear < start then start else s.endYear)
    ensures r == s.(endYear := r.endYear)
  {
    if s.endYear < start then s.(endYear := start) else s
  }

  /**
   * `togglePhase(scenarioId, phase)`: an active phase is switched off
   * unless it is phase 1; an inactive one is switched on, and phases 2
   * and 3 then start the year after the previous phase's end year, with
   * the end year raised to that start if it lies before it. A phase
   * number without a panel changes nothing.
   */
  function TogglePhase(slots: Slots, phase: int): (r: Slots)
    ensures !(1 <= phase <= 3) ==> r == slots
    ensures 1 <= phase <= 3 ==> OthersUnchanged(slots, r, phase - 1)
    ensures slots[0].active ==> r[0].active
    ensures phase == 1 ==> r == slots[0 := slots[0].(active := true)]
    ensures 2 <= phase <= 3 ==> r[phase - 1].active == !slots[phase - 1].active
    ensures 2 <= phase <= 3 && slots[phase - 1].active ==>
      r[phase - 1] == slots[phase - 1].(active := false)
    ensures 2 <= phase <= 3 && !slots[phase - 1].active ==>
      r[phase - 1].startYear == slots[phase - 2].endYear + 1
      && r[phase - 1].endYear == (if slots[phase - 1].endYear < r[phase - 1].startYear then r[phase - 1].startYear else slots[phase - 1].endYear)
      && r[phase - 1].active
      && r[phase - 1].savingsRate == slots[phase - 1].savingsRate
  {
    if !(1 <= phase <= 3) then slots
    else
      var s := slots[phase - 1];
      if s.active then
        if phase > 1 then slots[phase - 1 := s.(active := false)] else slots
      else
        var on := s.(active := true);
        if phase > 1 then
          var desiredStart := slots[phase - 2].endYear + 1;
          slots[phase - 1 := SnapEnd(on.(startYear := desiredStart), desiredStart)]
        else slots[phase - 1 := on]
  }

  /** Toggling phase 2 or 3 twice restores its on/off state and touches no other phase. */
  lemma ToggleTwiceRestoresFlag(slots: Slots, phase: int)
    requires 2 <= phase <= 3
    ensures TogglePhase(TogglePhase(slots, phase), phase)[phase - 1].active == slots[phase - 1].active
    ensures OthersUnchanged(slots, TogglePhase(TogglePhase(slots, phase), phase), phase - 1)
  {
  }

  /**
   * `syncNextPhaseStart(scenarioId, currentPhase)`: when the next phase
   * exists and is active, its start becomes the current end year + 1;
   * only if that changed its start is its end year raised to the new
   * start. Everything else is left alone.
   */
  function SyncNextPhaseStart(slots: Slots, current: int): (r: Slots)
    ensures !(1 <= current <= 2) ==> r == slots
    ensures 1 <= current <= 2 && !slots[current].active ==> r == slots
    ensures 1 <= current <= 2 ==> OthersUnchanged(slots, r, current)
    ensures 1 <= current <= 2 && slots[current].active ==>
      r[current].startYear == slots[current - 1].endYear + 1
      && r[current].active && r[current].savingsRate == slots[current].savingsRate
    ensures 1 <= current <= 2 && slots[current].active && slots[current].startYear != slots[current - 1].endYear + 1 ==>
      r[current].endYear == (if slots[current].endYear < r[current].startYear then r[current].startYear else slots[current].endYear)
    ensures 1 <= current <= 2 && slots[current].startYear == slots[current - 1].endYear + 1 ==> r == slots
  {
    if !(1 <= current <= 2) then slots
    else
      var next := slots[current];
      if !next.active then slots
      else
        var desiredStart := slots[current - 1].endYear + 1;
        if next.startYear != desiredStart then
          slots[current := SnapEnd(next.(startYear := desiredStart), desiredStart)]
        else slots
  }

  /** Synchronising twice is synchronising once. */
  lemma SyncIdempotent(slots: Slots, current: int)
    ensures SyncNextPhaseStart(SyncNextPhaseStart(slots, current), current) == SyncNextPhaseStart(slots, current)
  {
  }

  /**
   * The start of an active next phase that already follows on is kept,
   * even when its end year lies before it: only a changed start raises
   * the end year.
   */
  lemma AlignedStartKeepsEarlyEnd()
    ensures var slots: Slots := [Slot(true, 1, 5, 100.0), Slot(true, 6, 3, 50.0), Slot(false, 0, 0, 0.0)];
      SyncNextPhaseStart(slots, 1)[1].endYear == 3
  {
  }

  // ---------------------------------------------------------------------
  // Summaries
  // ---------------------------------------------------------------------

  /** `endYear - startYear + 1` of one phase. */
  function Duration(s: Slot): int {
    s.endYear - s.startYear + 1
  }

  /** The months shown on a phase's own summary: `Math.max(0, duration * 12)`. */
  function PhaseMonths(s: Slot): (m: nat)
    ensures Duration(s) >= 0 ==> m == 12 * Duration(s)
    ensures Duration(s) < 0 ==> m == 0
  {
    if Duration(s) * 12 > 0 then Duration(s) * 12 else 0
  }

  /** A phase whose end is not before its start always has at least 12 months. */
  lemma OrderedPhaseHasAYear(s: Slot)
    requires s.endYear >= s.startYear
    ensures PhaseMonths(s) >= 12
  {
  }

  // Reference definitions over a prefix of the slots, by the last slot.

  function ActiveCount(s: seq<Slot>): (n: nat)
    ensures n <= |s|
  {
    if |s| == 0 then 0 else ActiveCount(s[..|s| - 1]) + (if s[|s| - 1].active then 1 else 0)
  }

  /** Months of the active phases, as `updateMultiPhaseSummary` counts them (not clamped). */
  function ActiveMonths(s: seq<Slot>): int {
    if |s| == 0 then 0 else ActiveMonths(s[..|s| - 1]) + (if s[|s| - 1].active then Duration(s[|s| - 1]) * 12 else 0)
  }

  function ActiveContributions(s: seq<Slot>): real {
    if |s| == 0 then 0.0
    else
      var last := s[|s| - 1];
      ActiveContributions(s[..|s| - 1]) + (if last.active then (Duration(last) * 12) as real * last.savingsRate else 0.0)
  }

  /** The largest active end year, never below 0. */
  function LatestEnd(s: seq<Slot>): (e: int)
    ensures e >= 0
    ensures forall k :: 0 <= k < |s| && s[k].active ==> s[k].endYear <= e
    ensures e == 0 || exists k :: 0 <= k < |s| && s[k].active && s[k].endYear == e
  {
    if |s| == 0 then 0
    else
      var before := LatestEnd(s[..|s| - 1]);
      assert forall k :: 0 <= k < |s| - 1 ==> s[k] == s[..|s| - 1][k];
      if s[|s| - 1].active && s[|s| - 1].endYear > before then s[|s| - 1].endYear else before
  }

  datatype Summary = Summary(activePhases: nat, totalDuration: int, totalContributions: real, averageSavingsRate: real)

  /**
   * `updateMultiPhaseSummary`: the loop over phases 1 to 3, counting the
   * active ones, taking the latest end year, and summing months and
   * months times rate.
   */
  method MultiPhaseSummary(slots: Slots) returns (r: Summary)
    ensures r.activePhases == ActiveCount(slots)
    ensures r.totalDuration == LatestEnd(slots)
    ensures r.totalContributions == ActiveContributions(slots)
    ensures ActiveMonths(slots) > 0 ==> r.averageSavingsRate * ActiveMonths(slots) as real == r.totalContributions
    ensures ActiveMonths(slots) <= 0 ==> r.averageSavingsRate == 0.0
  {
    var activePhases := 0;
    var totalDuration := 0;
    var totalContributions := 0.0;
    var weightedSavingsSum := 0.0;
    var totalMonths := 0;
    var phase := 1;
    while phase <= 3
      invariant 1 <= phase <= 4
      invariant activePhases == ActiveCount(slots[..phase - 1])
      invariant totalDuration == LatestEnd(slots[..phase - 1])
      invariant totalContributions == ActiveContributions(slots[..phase - 1])
      invariant weightedSavingsSum == totalContributions
      invariant totalMonths == ActiveMonths(slots[..phase - 1])
    {
      var s := slots[phase - 1];
      assert slots[..phase][..phase - 1] == slots[..phase - 1];
      if s.active {
        activePhases := activePhases + 1;
        var phaseMonths := Duration(s) * 12;
        totalDuration := if totalDuration >= s.endYear then totalDuration else s.endYear;
        totalContributions := totalContributions + phaseMonths as real * s.savingsRate;
        weightedSavingsSum := weightedSavingsSum + phaseMonths as real * s.savingsRate;
        totalMonths := totalMonths + phaseMonths;
      }
      phase := phase + 1;
    }
    assert slots[..3] == slots;
    var average := if totalMonths > 0 then weightedSavingsSum / totalMonths as real else 0.0;
    r := Summary(activePhases, totalDuration, totalContributions, average);
  }

  /** When every active phase saves the same rate, the contributions are that rate per month. */
  lemma {:induction false} UniformRateContributions(s: seq<Slot>, rate: real)
    requires forall k :: 0 <= k < |s| && s[k].active ==> s[k].savingsRate == rate
    ensures ActiveContributions(s) == ActiveMonths(s) as real * rate
  {
    if |s| > 0 {
      var init := s[..|s| - 1];
      assert forall k :: 0 <= k < |init| ==> init[k] == s[k];
      UniformRateContributions(init, rate);
    }
  }

  /** ... so the average savings rate of the summary is that rate. */
  method UniformRateAverage(slots: Slots, rate: real) returns (r: Summary)
    requires forall k :: 0 <= k < 3 && slots[k].active ==> slots[k].savingsRate == rate
    requires ActiveMonths(slots) > 0
    ensures r.averageSavingsRate == rate
  {
    r := MultiPhaseSummary(slots);
    UniformRateContributions(slots, rate);
  }
}

=== FILE: poll_client.dfy ===
/**
 * The polling client embedded in every served page (the script literal
 * of dev-server.py). Every second it fetches the snapshot, keeps the
 * first one as a baseline, and reloads the page as soon as a later
 * snapshot has a path whose time differs from the cached one.
 *
 * The timer and `fetch` become a sequence of poll outcomes; a reload
 * ends the page, and the page that replaces it starts with an empty
 * cache.
 */
module PollClient {
  import opened Wrappers
  import opened Snapshot

  /** What one `fetch(...).then(r => r.json())` produced. */
  datatype PollOutcome = Received(snapshot: FileSnapshot) | Failed

  /** The cache after the poll and whether `window.location.reload()` was called. */
  datatype StepResult = StepResult(cache: FileSnapshot, reload: bool)

  /** A path of the new snapshot whose time is absent from, or different in, the cache. */
  predicate ChangedAt(cache: FileSnapshot, current: FileSnapshot, path: string) {
    path in current && (path !in cache || cache[path] != current[path])
  }

  predicate AnyChange(cache: FileSnapshot, current: FileSnapshot) {
    exists path | path in current :: ChangedAt(cache, current, path)
  }

  /** One poll callback. */
  function Step(cache: FileSnapshot, outcome: PollOutcome): (r: StepResult)
    ensures outcome.Failed? ==> r == StepResult(cache, false)
    ensures r.reload ==> r.cache == cache && |cache| > 0
    ensures outcome.Received? && !r.reload ==> r.cache == outcome.snapshot
  {
    match outcome
    case Failed => StepResult(cache, false)
    case Received(current) =>
      if |cache| == 0 then StepResult(current, false)
      else if AnyChange(cache, current) then StepResult(cache, true)
      else StepResult(current, false)
  }

  /** What the browser receives from the endpoint: an aborted walk leaves an unparsable body. */
  function ToOutcome(r: Result<FileSnapshot, SnapshotError>): (o: PollOutcome)
    ensures o.Failed? <==> r.Failure?
  {
    match r
    case Success(snapshot) => Received(snapshot)
    case Failure(_) => Failed
  }

  /** The first successful poll on a fresh page only stores the baseline. */
  lemma FirstPollNeverReloads(current: FileSnapshot)
    ensures Step(map[], Received(current)) == StepResult(current, false)
  {
  }

  /** A failed fetch or parse changes nothing. */
  lemma FailureIsHarmless(cache: FileSnapshot, r: Result<FileSnapshot, SnapshotError>)
    requires r.Failure?
    ensures Step(cache, ToOutcome(r)) == StepResult(cache, false)
  {
  }

  /**
   * With a baseline in place, the page reloads exactly when some path
   * of the new snapshot is new or carries another time; otherwise the
   * new snapshot becomes the cache.
   */
  lemma ReloadIffSomePathChanged(cache: FileSnapshot, current: FileSnapshot)
    requires |cache| > 0
    ensures Step(cache, Received(current)).reload <==>
      exists path :: path in current && (path !in cache || cache[path] != current[path])
    ensures !Step(cache, Received(current)).reload ==> Step(cache, Received(current)).cache == current
  {
    if exists path :: path in current && (path !in cache || cache[path] != current[path]) {
      var path :| path in current && (path !in cache || cache[path] != current[path]);
      assert ChangedAt(cache, current, path);
    }
  }

  /** A snapshot equal to the cache never reloads. */
  lemma UnchangedNeverReloads(cache: FileSnapshot)
    ensures Step(cache, Received(cache)) == StepResult(cache, false)
  {
  }

  /**
   * Paths that only disappeared do not reload: if every path still
   * present keeps its time, the smaller snapshot replaces the cache.
   */
  lemma DisappearedPathsDoNotReload(cache: FileSnapshot, current: FileSnapshot)
    requires |cache| > 0
    requires forall path :: path in current ==> path in cache && cache[path] == current[path]
    ensures Step(cache, Received(current)) == StepResult(current, false)
  {
  }

  /** One rewritten or newly created file is enough to reload. */
  lemma OneChangedFileReloads(cache: FileSnapshot, path: string, time: real)
    requires |cache| > 0
    requires path !in cache || cache[path] != time
    ensures Step(cache, Received(cache[path := time])).reload
  {
    assert ChangedAt(cache, cache[path := time], path);
  }

  /**
   * An empty snapshot empties the cache without reloading, so the poll
   * after it is treated as a first poll again and cannot reload.
   */
  lemma EmptySnapshotRestartsBaseline(cache: FileSnapshot, next: FileSnapshot)
    ensures Step(cache, Received(map[])) == StepResult(map[], false)
    ensures Step(Step(cache, Received(map[])).cache, Received(next)) == StepResult(next, false)
  {
    assert !AnyChange(cache, map[]);
  }

  // ---------------------------------------------------------------------
  // A page and the pages that replace it
  // ---------------------------------------------------------------------

  /** The cache of the page currently loaded and the number of reloads so far. */
  datatype Session = Session(cache: FileSnapshot, reloads: nat)

  const FreshPage: Session := Session(map[], 0)

  /** Feeds the polls in order; a reload replaces the page by one with an empty cache. */
  function Run(s: Session, polls: seq<PollOutcome>): (r: Session)
    ensures r.reloads >= s.reloads
    ensures r.reloads <= s.reloads + |polls|
    decreases |polls|
  {
    if |polls| == 0 then s
    else
      var step := Step(s.cache, polls[0]);
      var next := if step.reload then Session(map[], s.reloads + 1) else Session(step.cache, s.reloads);
      Run(next, polls[1..])
  }

  /** A constant non-empty tree never reloads a page, however long it polls. */
  lemma {:induction false} SteadyTreeNeverReloads(current: FileSnapshot, n: nat)
    requires |current| > 0
    ensures Run(FreshPage, seq(n, _ => Received(current))) == Session(if n == 0 then map[] else current, 0)
  {
    if n > 0 {
      var polls := seq(n, _ => Received(current));
      assert polls[1..] == seq(n - 1, _ => Received(current));
      SteadyCacheStays(current, n - 1, 0);
    }
  }

  lemma {:induction false} SteadyCacheStays(current: FileSnapshot, n: nat, reloads: nat)
    requires |current| > 0
    ensures Run(Session(current, reloads), seq(n, _ => Received(current))) == Session(current, reloads)
  {
    if n > 0 {
      var polls := seq(n, _ => Received(current));
      assert polls[1..] == seq(n - 1, _ => Received(current));
      SteadyCacheStays(current, n - 1, reloads);
    }
  }

  /**
   * One change batch, one reload: after the baseline `before`, a run of
   * `n >= 1` polls all returning a changed tree `after` reloads once and
   * leaves the new page holding `after` as its baseline.
   */
  lemma {:induction false} OneReloadPerChange(before: FileSnapshot, after: FileSnapshot, n: nat)
    requires |before| > 0
    requires AnyChange(before, after)
    requires n >= 1
    ensures Run(FreshPage, [Received(before)] + seq(n, _ => Received(after)))
      == Session(if n == 1 then map[] else after, 1)
  {
    var polls := [Received(before)] + seq(n, _ => Received(after));
    var rest := seq(n, _ => Received(after));
    assert polls[1..] == rest;
    assert Step(map[], Received(before)) == StepResult(before, false);
    assert Step(before, Received(after)).reload;
    assert rest[1..] == seq(n - 1, _ => Received(after));
    var path :| path in after && ChangedAt(before, after, path);
    assert |after| > 0;
    var more := seq(n - 1, _ => Received(after));
    assert Run(FreshPage, polls) == Run(Session(before, 0), rest);
    assert Run(Session(before, 0), rest) == Run(Session(map[], 1), more);
    if n > 1 {
      assert more[1..] == seq(n - 2, _ => Received(after));
      assert Step(map[], Received(after)) == StepResult(after, false);
      assert Run(Session(map[], 1), more) == Run(Session(after, 1), seq(n - 2, _ => Received(after)));
      SteadyCacheStays(after, n - 2, 1);
    }
  }

  /** The walk-through: index.html at 100 and app.js at 200, then app.js rewritten at 250. */
  lemma RewrittenScriptReloadsOnce()
    ensures var first := map["public/index.html" := 100.0, "public/app.js" := 200.0];
      var second := first["public/app.js" := 250.0];
      Run(FreshPage, [Received(first), Received(second)]) == Session(map[], 1)
  {
    var first := map["public/index.html" := 100.0, "public/app.js" := 200.0];
    var second := first["public/app.js" := 250.0];
    assert "public/index.html" in first;
    assert ChangedAt(first, second, "public/app.js");
    var polls := [Received(first), Received(second)];
    assert polls[1..] == [Received(second)];
    assert Step(map[], Received(first)) == StepResult(first, false);
    assert Run(FreshPage, polls) == Run(Session(first, 0), [Received(second)]);
    assert Step(first, Received(second)).reload;
    assert Run(Session(first, 0), [Received(second)]) == Run(Session(map[], 1), []);
  }
}

=== FILE: scenario_comparison.dfy ===
/**
 * The scenario list of the comparison tool
 * (public/js/features/scenarioComparison.js): at most six scenarios,
 * each with a nested parameter object, added, duplicated, removed,
 * renamed, shown or hidden, and edited through dotted parameter paths.
 * Panels, charts and notifications are left out; `confirm` and `prompt`
 * answers are inputs.
 */
module ScenarioComparison {
  import opened Wrappers
  import opened Strings
  import opened ParamTree
  import JsUtils

  const MaxScenarios: nat := 6
  const BaseId: string := "A"

  /** `scenarioColors`, indexed by the list length at creation. */
  const Palette: seq<string> := ["#3498db", "#27ae60", "#e74c3c", "#f39c12", "#9b59b6", "#1abc9c"]

  /**
   * `scenarioEmojis`, with the code points the file actually holds: each
   * entry is an emoji whose UTF-8 bytes were re-read in another encoding,
   * leaving U+F8FF followed by three Latin-1 letters (the chart, bar
   * chart, falling chart, briefcase, target and rocket emoji in intent).
   */
  const Emojis: seq<string> := [
    "\U{F8FF}\U{FC}\U{EC}\U{E0}", "\U{F8FF}\U{FC}\U{EC}\U{E4}", "\U{F8FF}\U{FC}\U{EC}\U{E2}",
    "\U{F8FF}\U{FC}\U{ED}\U{BA}", "\U{F8FF}\U{FC}\U{E9}\U{D8}", "\U{F8FF}\U{FC}\U{F6}\U{C4}"]

  datatype Results = Results(accumulation: map<string, real>, withdrawal: map<string, real>, performance: map<string, real>)

  const NoResults: Results := Results(map[], map[], map[])

  datatype Scenario = Scenario(
    id: string,
    name: string,
    emoji: string,
    color: string,
    visible: bool,
    parameters: Param,
    results: Results)

  function IdOf(s: Scenario): string { s.id }

  predicate HasId(list: seq<Scenario>, id: string) {
    exists k :: 0 <= k < |list| && list[k].id == id
  }

  /** The parameter object every new scenario starts with, the budget part fixed. */
  function Parameters(
    monthlySavings: real, initialCapital: real, annualReturn: real, duration: real, inflationRate: real,
    withdrawalDuration: real, returnRate: real, withdrawalInflation: real): Param
  {
    Group(map[
      "budget" := Group(map[
        "netIncome" := Num(3500.0),
        "monthlyExpenses" := Num(2800.0),
        "availableForSaving" := Num(700.0)]),
      "accumulation" := Group(map[
        "monthlySavings" := Num(monthlySavings),
        "initialCapital" := Num(initialCapital),
        "annualReturn" := Num(annualReturn),
        "duration" := Num(duration),
        "inflationRate" := Num(inflationRate),
        "includeTax" := Flag(true),
        "teilfreistellung" := Flag(true)]),
      "withdrawal" := Group(map[
        "duration" := Num(withdrawalDuration),
        "returnRate" := Num(returnRate),
        "inflationRate" := Num(withdrawalInflation),
        "includeTax" := Flag(true)])])
  }

  const DefaultParameters: Param := Parameters(500.0, 10000.0, 7.0, 25.0, 2.0, 25.0, 5.0, 2.0)

  /** The base scenario and the comparison scenario the tool opens with. */
  const InitialScenarios: seq<Scenario> := [
    Scenario("A", "Basis-Szenario", Emojis[0], Palette[0], true, DefaultParameters, NoResults),
    Scenario("B", "Vergleichs-Szenario", Emojis[1], Palette[1], true,
      Parameters(600.0, 15000.0, 8.0, 20.0, 2.5, 30.0, 6.0, 2.5), NoResults)]

  /**
   * `addScenario()`: refused at six scenarios; otherwise a visible
   * scenario with the next letter, the default parameters and empty
   * results is appended.
   */
  function AddScenario(list: seq<Scenario>): (r: seq<Scenario>)
    ensures |list| >= MaxScenarios ==> r == list
    ensures |list| < MaxScenarios ==>
      |r| == |list| + 1 && r[..|list|] == list
      && r[|list|].id == JsUtils.LetterId(|list|)
      && r[|list|].name == "Szenario " + r[|list|].id
      && r[|list|].visible
      && r[|list|].parameters == DefaultParameters
      && r[|list|].results == NoResults
  {
    if |list| >= MaxScenarios then list
    else
      var id := JsUtils.LetterId(|list|);
      var added := Scenario(id, "Szenario " + id, Emojis[|list|], Palette[|list|], true, DefaultParameters, NoResults);
      assert (list + [added])[..|list|] == list;
      list + [added]
  }

  /**
   * `duplicateScenario(id)`: refused at six scenarios and ignored for
   * an unknown id; otherwise a copy of the first scenario with that id
   * is appended under the next letter, named after the original, with
   * its parameters and visibility and with empty results.
   */
  function DuplicateScenario(list: seq<Scenario>, id: string): (r: seq<Scenario>)
    ensures |list| >= MaxScenarios || !HasId(list, id) ==> r == list
    ensures |list| < MaxScenarios && HasId(list, id) ==>
      |r| == |list| + 1 && r[..|list|] == list
    ensures |list| < MaxScenarios && HasId(list, id) ==>
      exists k :: 0 <= k < |list| && list[k].id == id
        && (forall j :: 0 <= j < k ==> list[j].id != id)
        && r[|list|].id == JsUtils.LetterId(|list|)
        && r[|list|].name == "Kopie von " + list[k].name
        && r[|list|].parameters == list[k].parameters
        && r[|list|].visible == list[k].visible
        && r[|list|].results == NoResults
  {
    if |list| >= MaxScenarios then list
    else
      match JsUtils.FindIndex(list, IdOf, id)
      case None => list
      case Some(k) =>
        var original := list[k];
        var copy := original.(id := JsUtils.LetterId(|list|), name := "Kopie von " + original.name,
          emoji := Emojis[|list|], color := Palette[|list|], results := NoResults);
        assert (list + [copy])[..|list|] == list;
        list + [copy]
  }

  /**
   * `removeScenario(id)`: `A` is refused, and so are an unknown id and
   * an unconfirmed removal; otherwise only the first scenario with that
   * id is spliced out.
   */
  function RemoveScenario(list: seq<Scenario>, id: string, confirmed: bool): (r: seq<Scenario>)
    ensures id == BaseId || !confirmed || !HasId(list, id) ==> r == list
    ensures id != BaseId && confirmed && HasId(list, id) ==>
      exists k :: 0 <= k < |list| && list[k].id == id
        && (forall j :: 0 <= j < k ==> list[j].id != id)
        && r == list[..k] + list[k + 1..]
  {
    if id == BaseId then list
    else
      match JsUtils.FindIndex(list, IdOf, id)
      case None => list
      case Some(k) => if confirmed then list[..k] + list[k + 1..] else list
  }

  /** `toggleScenarioVisibility(id, visible)`: only the first matching scenario's flag changes. */
  function SetVisibility(list: seq<Scenario>, id: string, visible: bool): (r: seq<Scenario>)
    ensures !HasId(list, id) ==> r == list
    ensures HasId(list, id) ==>
      exists k :: 0 <= k < |list| && list[k].id == id
        && (forall j :: 0 <= j < k ==> list[j].id != id)
        && r == list[k := list[k].(visible := visible)]
  {
    match JsUtils.FindIndex(list, IdOf, id)
    case None => list
    case Some(k) => list[k := list[k].(visible := visible)]
  }

  /**
   * `renameScenario(id)`: the first matching scenario takes the trimmed
   * answer as its name unless the prompt was cancelled or the answer is
   * blank.
   */
  function RenameScenario(list: seq<Scenario>, id: string, answer: Option<string>): (r: seq<Scenario>)
    ensures !HasId(list, id) || answer.None? || Trim(answer.value) == "" ==> r == list
    ensures HasId(list, id) && answer.Some? && Trim(answer.value) != "" ==>
      exists k :: 0 <= k < |list| && list[k].id == id
        && (forall j :: 0 <= j < k ==> list[j].id != id)
        && r == list[k := list[k].(name := Trim(answer.value))]
  {
    match JsUtils.FindIndex(list, IdOf, id)
    case None => list
    case Some(k) =>
      if answer.None? || Trim(answer.value) == "" then list
      else list[k := list[k].(name := Trim(answer.value))]
  }

  /** `getParameterValue(scenario, path)`. */
  function ParameterValue(s: Scenario, path: string): Param {
    GetAt(s.parameters, Segments(path))
  }

  /**
   * `updateScenarioParameter(id, path, value)`: an unknown id changes
   * nothing; otherwise the first matching scenario's parameter at the
   * path is written, or the write throws and nothing changes.
   */
  function UpdateParameter(list: seq<Scenario>, id: string, path: string, value: Param): (r: Result<seq<Scenario>, TypeError>)
    ensures !HasId(list, id) ==> r == Success(list)
    ensures r.Success? ==> |r.value| == |list|
    ensures r.Success? ==> forall j :: 0 <= j < |list| ==> r.value[j] == list[j].(parameters := r.value[j].parameters)
    ensures HasId(list, id) ==>
      exists k :: 0 <= k < |list| && list[k].id == id
        && (forall j :: 0 <= j < k ==> list[j].id != id)
        && (r.Success? <==> GetAt(list[k].parameters, Parent(Segments(path))).Group?)
        && (r.Success? ==> forall j :: 0 <= j < |list| && j != k ==> r.value[j] == list[j])
        && (r.Success? ==> ParameterValue(r.value[k], path) == value)
  {
    match JsUtils.FindIndex(list, IdOf, id)
    case None => Success(list)
    case Some(k) =>
      match SetAt(list[k].parameters, Segments(path), value)
      case Failure(e) => Failure(e)
      case Success(p) =>
        GetAfterSet(list[k].parameters, Segments(path), value);
        Success(list[k := list[k].(parameters := p)])
  }

  /** A write changes no parameter on a path that parts from the written one. */
  lemma UpdateLeavesOtherParameters(list: seq<Scenario>, id: string, path: string, value: Param, other: string, k: nat)
    requires k < |list| && list[k].id == id
    requires forall j :: 0 <= j < k ==> list[j].id != id
    requires UpdateParameter(list, id, path, value).Success?
    requires Diverge(Segments(path), Segments(other))
    ensures ParameterValue(UpdateParameter(list, id, path, value).value[k], other) == ParameterValue(list[k], other)
  {
    SetLeavesOtherPaths(list[k].parameters, Segments(path), value, Segments(other));
  }

  /**
   * A toggle with a dependent toggle: the flag at `flagPath` is written,
   * and switching it off also writes `false` to `dependentPath`.
   */
  function FlagWithDependent(list: seq<Scenario>, id: string, checked: bool, flagPath: string, dependentPath: string): (r: Result<seq<Scenario>, TypeError>)
    ensures !HasId(list, id) ==> r == Success(list)
    ensures r.Success? ==> |r.value| == |list|
    ensures r.Success? ==> forall j :: 0 <= j < |list| ==> r.value[j] == list[j].(parameters := r.value[j].parameters)
  {
    match UpdateParameter(list, id, flagPath, Flag(checked))
    case Failure(e) => Failure(e)
    case Success(written) =>
      if checked then Success(written)
      else UpdateParameter(written, id, dependentPath, Flag(false))
  }

  const AccumulationKey: string := "accumulation"
  const IncludeTaxKey: string := "includeTax"
  const TeilfreistellungKey: string := "teilfreistellung"
  const IncludeTaxPath: string := AccumulationKey + "." + IncludeTaxKey
  const TeilfreistellungPath: string := AccumulationKey + "." + TeilfreistellungKey

  /** The change handler of the `accumulation.includeTax` toggle, whose dependent is `accumulation.teilfreistellung`. */
  function IncludeTaxChanged(list: seq<Scenario>, id: string, checked: bool): (r: Result<seq<Scenario>, TypeError>)
    ensures !HasId(list, id) ==> r == Success(list)
    ensures r.Success? ==> |r.value| == |list|
    ensures r.Success? ==> forall j :: 0 <= j < |list| ==> r.value[j] == list[j].(parameters := r.value[j].parameters)
  {
    FlagWithDependent(list, id, checked, IncludeTaxPath, TeilfreistellungPath)
  }

  /**
   * Switching a flag off writes `false` to it and to its sibling
   * dependent, on the first scenario with the id only, when their common
   * parent is an object.
   */
  lemma DependentClearedWhenOff(list: seq<Scenario>, k: nat, flagPath: string, dependentPath: string)
    requires k < |list|
    requires forall j :: 0 <= j < k ==> list[j].id != list[k].id
    requires |Segments(flagPath)| == 2 && |Segments(dependentPath)| == 2
    requires Segments(flagPath)[0] == Segments(dependentPath)[0]
    requires Segments(flagPath)[1] != Segments(dependentPath)[1]
    requires GetAt(list[k].parameters, [Segments(flagPath)[0]]).Group?
    ensures var r := FlagWithDependent(list, list[k].id, false, flagPath, dependentPath);
      r.Success?
      && ParameterValue(r.value[k], flagPath) == Flag(false)
      && ParameterValue(r.value[k], dependentPath) == Flag(false)
      && forall j :: 0 <= j < |list| && j != k ==> r.value[j] == list[j]
  {
    var id := list[k].id;
    assert Parent(Segments(flagPath)) == [Segments(flagPath)[0]];
    assert Parent(Segments(dependentPath)) == [Segments(flagPath)[0]];
    var written := UpdateParameter(list, id, flagPath, Flag(false));
    assert written.Success?;
    SetKeepsParent(list[k].parameters, Segments(flagPath), Flag(false));
    assert written.value[k].id == id;
    var r := UpdateParameter(written.value, id, dependentPath, Flag(false));
    assert r.Success?;
    assert Diverge(Segments(dependentPath), Segments(flagPath)) by {
      assert Segments(dependentPath)[1] != Segments(flagPath)[1];
    }
    UpdateLeavesOtherParameters(written.value, id, dependentPath, Flag(false), flagPath, k);
    assert FlagWithDependent(list, id, false, flagPath, dependentPath) == r;
  }

  /**
   * Switching the tax off on a scenario whose `accumulation` is an
   * object succeeds and leaves both `includeTax` and `teilfreistellung`
   * false; no other scenario changes.
   */
  lemma TaxOffClearsTeilfreistellung(list: seq<Scenario>, k: nat)
    requires k < |list|
    requires forall j :: 0 <= j < k ==> list[j].id != list[k].id
    requires GetAt(list[k].parameters, [AccumulationKey]).Group?
    ensures var r := IncludeTaxChanged(list, list[k].id, false);
      r.Success?
      && ParameterValue(r.value[k], IncludeTaxPath) == Flag(false)
      && ParameterValue(r.value[k], TeilfreistellungPath) == Flag(false)
      && forall j :: 0 <= j < |list| && j != k ==> r.value[j] == list[j]
  {
    SplitTwoSegments(AccumulationKey, IncludeTaxKey);
    SplitTwoSegments(AccumulationKey, TeilfreistellungKey);
    DependentClearedWhenOff(list, k, IncludeTaxPath, TeilfreistellungPath);
  }

  /**
   * Switching a flag on writes `true` to it, on the first scenario with
   * the id only, and leaves its dependent as it was.
   */
  lemma FlagOnKeepsDependent(list: seq<Scenario>, k: nat, flagPath: string, dependentPath: string)
    requires k < |list|
    requires forall j :: 0 <= j < k ==> list[j].id != list[k].id
    requires Diverge(Segments(flagPath), Segments(dependentPath))
    requires GetAt(list[k].parameters, Parent(Segments(flagPath))).Group?
    ensures var r := FlagWithDependent(list, list[k].id, true, flagPath, dependentPath);
      r.Success?
      && ParameterValue(r.value[k], flagPath) == Flag(true)
      && ParameterValue(r.value[k], dependentPath) == ParameterValue(list[k], dependentPath)
      && forall j :: 0 <= j < |list| && j != k ==> r.value[j] == list[j]
  {
    UpdateLeavesOtherParameters(list, list[k].id, flagPath, Flag(true), dependentPath, k);
  }

  /**
   * Switching the tax on, on a scenario whose `accumulation` is an
   * object, sets `includeTax` and keeps `teilfreistellung` as it was; no
   * other scenario changes.
   */
  lemma TaxOnKeepsTeilfreistellung(list: seq<Scenario>, k: nat)
    requires k < |list|
    requires forall j :: 0 <= j < k ==> list[j].id != list[k].id
    requires GetAt(list[k].parameters, [AccumulationKey]).Group?
    ensures var r := IncludeTaxChanged(list, list[k].id, true);
      r.Success?
      && ParameterValue(r.value[k], IncludeTaxPath) == Flag(true)
      && ParameterValue(r.value[k], TeilfreistellungPath) == ParameterValue(list[k], TeilfreistellungPath)
      && forall j :: 0 <= j < |list| && j != k ==> r.value[j] == list[j]
  {
    SplitTwoSegments(AccumulationKey, IncludeTaxKey);
    SplitTwoSegments(AccumulationKey, TeilfreistellungKey);
    assert Parent(Segments(IncludeTaxPath)) == [AccumulationKey];
    assert Segments(IncludeTaxPath)[1] != Segments(TeilfreistellungPath)[1];
    FlagOnKeepsDependent(list, k, IncludeTaxPath, TeilfreistellungPath);
  }

  // ---------------------------------------------------------------------
  // The invariant every operation keeps
  // ---------------------------------------------------------------------

  /** Scenario `A` is present and there are at most six scenarios. */
  predicate Valid(list: seq<Scenario>) {
    HasId(list, BaseId) && |list| <= MaxScenarios
  }

  lemma InitialValid()
    ensures Valid(InitialScenarios)
  {
    assert InitialScenarios[0].id == BaseId;
  }

  /** Appending, or changing fields other than the id in place, keeps `A`. */
  lemma HasIdKept(list: seq<Scenario>, r: seq<Scenario>, id: string)
    requires HasId(list, id)
    requires |r| >= |list|
    requires forall j :: 0 <= j < |list| ==> r[j].id == list[j].id
    ensures HasId(r, id)
  {
    var k :| 0 <= k < |list| && list[k].id == id;
    assert r[k].id == id;
  }

  lemma AddKeepsValid(list: seq<Scenario>, id: string)
    requires Valid(list)
    ensures Valid(AddScenario(list))
    ensures Valid(DuplicateScenario(list, id))
  {
    HasIdKept(list, AddScenario(list), BaseId);
    HasIdKept(list, DuplicateScenario(list, id), BaseId);
  }

  lemma EditsKeepValid(list: seq<Scenario>, id: string, visible: bool, answer: Option<string>, path: string, value: Param)
    requires Valid(list)
    ensures Valid(SetVisibility(list, id, visible))
    ensures Valid(RenameScenario(list, id, answer))
    ensures UpdateParameter(list, id, path, value).Success? ==> Valid(UpdateParameter(list, id, path, value).value)
  {
    HasIdKept(list, SetVisibility(list, id, visible), BaseId);
    HasIdKept(list, RenameScenario(list, id, answer), BaseId);
    var u := UpdateParameter(list, id, path, value);
    if u.Success? {
      HasIdKept(list, u.value, BaseId);
    }
  }

  lemma RemoveKeepsValid(list: seq<Scenario>, id: string, confirmed: bool)
    requires Valid(list)
    ensures Valid(RemoveScenario(list, id, confirmed))
  {
    if id != BaseId && confirmed && HasId(list, id) {
      var k :| 0 <= k < |list| && list[k].id == id
        && RemoveScenario(list, id, confirmed) == list[..k] + list[k + 1..];
      SpliceKeepsId(list, k, BaseId);
    }
  }

  /** Splicing out a scenario with another id keeps `x` present. */
  lemma SpliceKeepsId(list: seq<Scenario>, k: nat, x: string)
    requires k < |list| && list[k].id != x && HasId(list, x)
    ensures HasId(list[..k] + list[k + 1..], x)
  {
    var r := list[..k] + list[k + 1..];
    var a :| 0 <= a < |list| && list[a].id == x;
    if a < k {
      assert r[a] == list[a];
    } else {
      assert r[a - 1] == list[a];
    }
  }

  /**
   * Unlike the accumulation tabs, removal takes out one scenario only:
   * the count of scenarios with that id drops by exactly one.
   */
  lemma RemoveTakesOneCopy(list: seq<Scenario>, id: string)
    requires id != BaseId && HasId(list, id)
    ensures JsUtils.CountId(RemoveScenario(list, id, true), IdOf, id) == JsUtils.CountId(list, IdOf, id) - 1
  {
    var k :| 0 <= k < |list| && list[k].id == id && RemoveScenario(list, id, true) == list[..k] + list[k + 1..];
    assert list == list[..k] + ([list[k]] + list[k + 1..]);
    CountIdConcat(list[..k], [list[k]] + list[k + 1..], id);
    CountIdConcat(list[..k], list[k + 1..], id);
    CountIdConcat([list[k]], list[k + 1..], id);
  }

  lemma {:induction false} CountIdConcat(a: seq<Scenario>, b: seq<Scenario>, id: string)
    ensures JsUtils.CountId(a + b, IdOf, id) == JsUtils.CountId(a, IdOf, id) + JsUtils.CountId(b, IdOf, id)
  {
    if |a| > 0 {
      assert (a + b)[1..] == a[1..] + b;
      CountIdConcat(a[1..], b, id);
    } else {
      assert a + b == b;
    }
  }

  /** Showing a scenario and then restoring its old flag gives back the list. */
  lemma VisibilityRoundTrip(list: seq<Scenario>, id: string, visible: bool, k: nat)
    requires k < |list| && list[k].id == id
    requires forall j :: 0 <= j < k ==> list[j].id != id
    ensures SetVisibility(SetVisibility(list, id, visible), id, list[k].visible) == list
  {
    var once := SetVisibility(list, id, visible);
    assert once == list[k := list[k].(visible := visible)];
    assert once[k].id == id;
    assert forall j :: 0 <= j < k ==> once[j].id != id;
  }

  // ---------------------------------------------------------------------
  // Performance scores
  // ---------------------------------------------------------------------

  datatype Metrics = NoMetrics | Scores(riskScore: real, efficiencyScore: real, stabilityScore: real, overallScore: real)

  function MinReal(a: real, b: real): real { if a <= b then a else b }
  function MaxReal(a: real, b: real): real { if a >= b then a else b }
  function AbsReal(a: real): real { if a < 0.0 then -a else a }

  /**
   * `calculatePerformanceMetrics(scenario)` on the parameters it reads.
   * No `finalNominal` (absent, or 0) gives the empty object; otherwise
   * the risk score is capped at 10.
   */
  function PerformanceMetrics(
    finalNominal: Option<real>, annualReturn: real, duration: real, inflationRate: real,
    includeTax: bool, teilfreistellung: bool, effectiveAnnualReturn: real): (m: Metrics)
    ensures m.NoMetrics? <==> finalNominal.None? || finalNominal.value == 0.0
    ensures m.Scores? ==> m.riskScore <= 10.0 && m.efficiencyScore <= 10.0 && m.stabilityScore >= 0.0
    ensures m.Scores? && inflationRate >= 0.0 ==>
      0.0 <= m.riskScore && m.stabilityScore <= 10.0 && m.overallScore <= 10.0
  {
    if finalNominal.None? || finalNominal.value == 0.0 then NoMetrics
    else
      var returnRisk := MaxReal(0.0, (annualReturn - 5.0) * 1.5);
      var durationRisk := MaxReal(0.0, (duration - 20.0) * 0.3);
      var inflationRisk := inflationRate * 1.2;
      var riskScore := MinReal(10.0, returnRisk + durationRisk + inflationRisk);
      var returnEfficiency := MinReal(10.0, effectiveAnnualReturn * 0.8);
      var taxEfficiency := if includeTax then (if teilfreistellung then 7.0 else 5.0) else 10.0;
      var efficiencyScore := (returnEfficiency + taxEfficiency) / 2.0;
      var returnStability := MaxReal(0.0, 10.0 - AbsReal(annualReturn - 7.0));
      var inflationStability := MaxReal(0.0, 10.0 - inflationRate * 2.0);
      var stabilityScore := (returnStability + inflationStability) / 2.0;
      Scores(riskScore, efficiencyScore, stabilityScore,
        efficiencyScore * 0.4 + stabilityScore * 0.35 + (10.0 - riskScore) * 0.25)
  }

  /** A higher expected return never lowers the risk score. */
  lemma RiskGrowsWithReturn(a1: real, a2: real, duration: real, inflationRate: real, includeTax: bool, teilfreistellung: bool, ear: real)
    requires a1 <= a2
    ensures var m1 := PerformanceMetrics(Some(1.0), a1, duration, inflationRate, includeTax, teilfreistellung, ear);
      var m2 := PerformanceMetrics(Some(1.0), a2, duration, inflationRate, includeTax, teilfreistellung, ear);
      m1.riskScore <= m2.riskScore
  {
  }

  /** Leaving tax out scores at least as efficient as any taxed setting. */
  lemma UntaxedIsMostEfficient(annualReturn: real, duration: real, inflationRate: real, teilfreistellung: bool, ear: real)
    ensures var taxed := PerformanceMetrics(Some(1.0), annualReturn, duration, inflationRate, true, teilfreistellung, ear);
      var untaxed := PerformanceMetrics(Some(1.0), annualReturn, duration, inflationRate, false, teilfreistellung, ear);
      taxed.efficiencyScore < untaxed.efficiencyScore
  {
  }
}

=== FILE: scenario_tabs.dfy ===
/**
 * The accumulation scenario tabs (public/js/features/scenarioManager.js)
 * as a state machine over the scenario list, the active tab, the set of
 * scenarios drawn in the chart and the scenario chosen for the
 * contributions chart. Panels, tabs and notifications are left out;
 * `confirm` and `prompt` answers are inputs.
 */
module ScenarioTabs {
  import opened Wrappers
  import opened Strings
  import JsUtils

  const MaxScenarios: nat := 4
  const BaseId: string := "A"

  datatype TabScenario = TabScenario(
    id: string,
    name: string,
    color: Option<string>,
    inputs: map<string, string>,
    yearlyData: seq<real>,
    results: map<string, real>)

  datatype Tabs = Tabs(
    scenarios: seq<TabScenario>,
    active: string,
    chartSelection: set<string>,
    contributionsScenario: string)

  function IdOf(s: TabScenario): string { s.id }

  predicate HasId(st: Tabs, id: string) {
    exists k :: 0 <= k < |st.scenarios| && st.scenarios[k].id == id
  }

  /** `scenarioColors[id]`, `undefined` for a letter past D. */
  function ColorFor(id: string): Option<string> {
    if id == "A" then Some("#3498db")
    else if id == "B" then Some("#27ae60")
    else if id == "C" then Some("#e74c3c")
    else if id == "D" then Some("#f39c12")
    else None
  }

  /** The scenario object both creation functions build for a list of length `n`. */
  function NewScenario(n: nat): (s: TabScenario)
    requires n < 26
    ensures s.id == JsUtils.LetterId(n) && s.name == "Szenario " + s.id
    ensures s.inputs == map[] && s.yearlyData == [] && s.results == map[]
  {
    var id := JsUtils.LetterId(n);
    TabScenario(id, "Szenario " + id, ColorFor(id), map[], [], map[])
  }

  datatype AddResult = AddResult(tabs: Tabs, added: Option<TabScenario>)

  /** `createNewScenarioWithoutSwitching()`: append, but leave the selection alone. */
  function CreateWithoutSwitching(st: Tabs): (r: AddResult)
    ensures |st.scenarios| >= MaxScenarios ==> r == AddResult(st, None)
    ensures |st.scenarios| < MaxScenarios ==>
      r.added == Some(NewScenario(|st.scenarios|))
      && r.tabs == st.(scenarios := st.scenarios + [NewScenario(|st.scenarios|)])
  {
    if |st.scenarios| >= MaxScenarios then AddResult(st, None)
    else
      var s := NewScenario(|st.scenarios|);
      AddResult(st.(scenarios := st.scenarios + [s]), Some(s))
  }

  /** `switchToScenario(id)`: the active tab becomes `id`. */
  function SwitchTo(st: Tabs, id: string): (r: Tabs)
    ensures r.active == id && r.scenarios == st.scenarios
    ensures r.chartSelection == st.chartSelection && r.contributionsScenario == st.contributionsScenario
  {
    st.(active := id)
  }

  /**
   * `addNewScenario()`: refused at four scenarios; otherwise one scenario
   * with the next letter is appended, becomes active, and is selected
   * for the chart.
   */
  function AddNewScenario(st: Tabs): (r: AddResult)
    ensures |st.scenarios| >= MaxScenarios ==> r == AddResult(st, None)
    ensures |st.scenarios| < MaxScenarios ==>
      |r.tabs.scenarios| == |st.scenarios| + 1
      && r.tabs.scenarios[..|st.scenarios|] == st.scenarios
      && r.tabs.scenarios[|st.scenarios|] == NewScenario(|st.scenarios|)
      && r.added == Some(NewScenario(|st.scenarios|))
      && r.tabs.active == JsUtils.LetterId(|st.scenarios|)
      && r.tabs.chartSelection == st.chartSelection + {JsUtils.LetterId(|st.scenarios|)}
      && r.tabs.contributionsScenario == st.contributionsScenario
  {
    var created := CreateWithoutSwitching(st);
    match created.added
    case None => created
    case Some(s) =>
      var switched := SwitchTo(created.tabs, s.id);
      assert switched.scenarios[..|st.scenarios|] == st.scenarios;
      AddResult(switched.(chartSelection := switched.chartSelection + {s.id}), Some(s))
  }

  /** Adding is creating without switching, then switching to and selecting the new one. */
  lemma AddIsCreateThenSwitch(st: Tabs)
    requires |st.scenarios| < MaxScenarios
    ensures var c := CreateWithoutSwitching(st).tabs;
      AddNewScenario(st).tabs == SwitchTo(c, JsUtils.LetterId(|st.scenarios|)).(chartSelection := st.chartSelection + {JsUtils.LetterId(|st.scenarios|)})
  {
  }

  /**
   * `removeScenario(id)`: `A` is refused, and so is an unconfirmed
   * removal; otherwise every scenario with that id goes, the id leaves
   * the chart selection, and an active or contributions selection of
   * that id falls back to `A`.
   */
  function RemoveScenario(st: Tabs, id: string, confirmed: bool): (r: Tabs)
    ensures id == BaseId || !confirmed ==> r == st
    ensures id != BaseId && confirmed ==>
      r.scenarios == JsUtils.RemoveById(st.scenarios, IdOf, id)
      && r.chartSelection == st.chartSelection - {id}
      && r.active == (if st.active == id then BaseId else st.active)
      && r.contributionsScenario == (if st.contributionsScenario == id then BaseId else st.contributionsScenario)
  {
    if id == BaseId || !confirmed then st
    else
      var kept := JsUtils.RemoveById(st.scenarios, IdOf, id);
      var afterActive := if st.active == id then SwitchTo(st, BaseId) else st;
      Tabs(kept, afterActive.active, st.chartSelection - {id},
        if st.contributionsScenario == id then BaseId else st.contributionsScenario)
  }

  datatype RenameOutcome = Renamed | NotFound | Cancelled | EmptyName | Unchanged

  /** `k` is the index `scenarios.find` stops at for `id`. */
  predicate FirstWithId(st: Tabs, id: string, k: int) {
    0 <= k < |st.scenarios| && st.scenarios[k].id == id
    && forall j :: 0 <= j < k ==> st.scenarios[j].id != id
  }

  /**
   * `renameScenario(id)` with the prompt's answer (`None` when it was
   * cancelled): the first scenario with the id takes the trimmed answer
   * as its name unless it is blank or equal to the current name.
   */
  function RenameScenario(st: Tabs, id: string, answer: Option<string>): (r: (Tabs, RenameOutcome))
    ensures r.1 != Renamed ==> r.0 == st
    ensures r.1 == NotFound <==> !HasId(st, id)
    ensures r.1 == Cancelled <==> HasId(st, id) && answer.None?
    ensures r.1 == EmptyName <==> HasId(st, id) && answer.Some? && Trim(answer.value) == ""
    ensures forall k :: FirstWithId(st, id, k) ==>
      (r.1 == Unchanged <==> answer.Some? && Trim(answer.value) != "" && Trim(answer.value) == st.scenarios[k].name)
    ensures forall k :: FirstWithId(st, id, k) && answer.Some? ==>
      Trim(answer.value) != "" && Trim(answer.value) != st.scenarios[k].name ==>
      r == (st.(scenarios := st.scenarios[k := st.scenarios[k].(name := Trim(answer.value))]), Renamed)
    ensures r.1 == Renamed ==>
      exists k :: 0 <= k < |st.scenarios| && st.scenarios[k].id == id
        && (forall j :: 0 <= j < k ==> st.scenarios[j].id != id)
        && answer.Some? && r.0 == st.(scenarios := st.scenarios[k := st.scenarios[k].(name := Trim(answer.value))])
        && |Trim(answer.value)| > 0 && Trim(answer.value) != st.scenarios[k].name
  {
    match JsUtils.FindIndex(st.scenarios, IdOf, id)
    case None => (st, NotFound)
    case Some(k) =>
      assert FirstWithId(st, id, k);
      var current := st.scenarios[k];
      if answer.None? then (st, Cancelled)
      else
        var trimmed := Trim(answer.value);
        if trimmed == "" then (st, EmptyName)
        else if trimmed == current.name then (st, Unchanged)
        else (st.(scenarios := st.scenarios[k := current.(name := trimmed)]), Renamed)
  }

  // ---------------------------------------------------------------------
  // The invariant every operation keeps
  // ---------------------------------------------------------------------

  /**
   * Scenario `A` exists, the active and contributions selections name
   * existing scenarios, every charted id exists, and there are at most
   * four scenarios.
   */
  predicate Valid(st: Tabs) {
    HasId(st, BaseId) && HasId(st, st.active) && HasId(st, st.contributionsScenario)
    && (forall id :: id in st.chartSelection ==> HasId(st, id))
    && |st.scenarios| <= MaxScenarios
  }

  lemma HasIdAfterAppend(st: Tabs, extra: TabScenario, id: string)
    requires HasId(st, id)
    ensures HasId(st.(scenarios := st.scenarios + [extra]), id)
  {
    var k :| 0 <= k < |st.scenarios| && st.scenarios[k].id == id;
    assert (st.scenarios + [extra])[k] == st.scenarios[k];
  }

  lemma AddKeepsValid(st: Tabs)
    requires Valid(st)
    ensures Valid(AddNewScenario(st).tabs)
    ensures Valid(CreateWithoutSwitching(st).tabs)
  {
    if |st.scenarios| < MaxScenarios {
      var s := NewScenario(|st.scenarios|);
      var c := st.(scenarios := st.scenarios + [s]);
      HasIdAfterAppend(st, s, BaseId);
      HasIdAfterAppend(st, s, st.active);
      HasIdAfterAppend(st, s, st.contributionsScenario);
      forall id | id in st.chartSelection ensures HasId(c, id) {
        HasIdAfterAppend(st, s, id);
      }
      assert c.scenarios[|st.scenarios|] == s;
      assert HasId(c, s.id);
    }
  }

  /** An id other than the removed one survives the removal. */
  lemma HasIdAfterRemove(st: Tabs, removed: string, id: string)
    requires HasId(st, id) && id != removed
    ensures var kept := JsUtils.RemoveById(st.scenarios, IdOf, removed);
      exists k :: 0 <= k < |kept| && kept[k].id == id
  {
    var k :| 0 <= k < |st.scenarios| && st.scenarios[k].id == id;
    JsUtils.RemoveKeepsOthers(st.scenarios, IdOf, removed, st.scenarios[k]);
  }

  lemma RemoveKeepsValid(st: Tabs, id: string, confirmed: bool)
    requires Valid(st)
    ensures Valid(RemoveScenario(st, id, confirmed))
  {
    if id != BaseId && confirmed {
      var r := RemoveScenario(st, id, confirmed);
      HasIdAfterRemove(st, id, BaseId);
      if st.active != id { HasIdAfterRemove(st, id, st.active); }
      if st.contributionsScenario != id { HasIdAfterRemove(st, id, st.contributionsScenario); }
      forall c | c in r.chartSelection ensures HasId(r, c) {
        HasIdAfterRemove(st, id, c);
      }
    }
  }

  lemma RenameKeepsValid(st: Tabs, id: string, answer: Option<string>)
    requires Valid(st)
    ensures Valid(RenameScenario(st, id, answer).0)
  {
    var r := RenameScenario(st, id, answer);
    if r.1 == Renamed {
      var k :| 0 <= k < |st.scenarios| && st.scenarios[k].id == id && answer.Some?
        && r.0 == st.(scenarios := st.scenarios[k := st.scenarios[k].(name := Trim(answer.value))]);
      forall x | HasId(st, x) ensures HasId(r.0, x) {
        var j :| 0 <= j < |st.scenarios| && st.scenarios[j].id == x;
        assert r.0.scenarios[j].id == x;
      }
    }
  }

  /**
   * Ids come from the list length, so removing a middle scenario and
   * adding one repeats the id of the last: from A, B, C, removing B and
   * adding gives A, C, C.
   */
  lemma RemoveThenAddRepeatsId(st: Tabs)
    requires |st.scenarios| == 3
    requires st.scenarios[0].id == "A" && st.scenarios[1].id == "B" && st.scenarios[2].id == "C"
    ensures var r := AddNewScenario(RemoveScenario(st, "B", true)).tabs;
      |r.scenarios| == 3 && r.scenarios[1].id == "C" && r.scenarios[2].id == "C"
  {
    var s := st.scenarios;
    assert s == [s[0]] + ([s[1]] + [s[2]]);
    JsUtils.RemoveByIdConcat([s[0]], [s[1]] + [s[2]], IdOf, "B");
    JsUtils.RemoveByIdConcat([s[1]], [s[2]], IdOf, "B");
    assert JsUtils.RemoveById([s[0]], IdOf, "B") == [s[0]];
    assert JsUtils.RemoveById([s[1]], IdOf, "B") == [];
    assert JsUtils.RemoveById([s[2]], IdOf, "B") == [s[2]];
    assert JsUtils.LetterId(2) == "C";
  }
}

=== FILE: snapshot.dfy ===
/**
 * The file snapshot served at `/live-reload-check` (dev-server.py): a
 * walk of the served tree becomes a map from joined path to
 * modification time, restricted to the watched extensions.
 *
 * The directory walk itself is an input: the files `os.walk` reports,
 * in the order it reports them, each with the result of its `stat`
 * (`None` when the file vanished between listing and stat).
 */
module Snapshot {
  import opened Wrappers
  import opened Strings

  datatype WalkedFile = WalkedFile(dir: string, name: string, mtime: Option<real>)

  /** Path -> modification time in seconds. */
  type FileSnapshot = map<string, real>

  /** `os.path.getmtime` raised for this path; the request aborts. */
  datatype SnapshotError = Vanished(path: string)

  /**
   * `s.endswith(suffix)`, by dropping leading characters; stated
   * recursively so that a walk over many names only unfolds it where
   * a proof needs it. `HasSuffixIsEndsWith` shows it is `EndsWith`.
   */
  predicate HasSuffix(s: string, suffix: string)
    decreases |s|
  {
    if |s| <= |suffix| then s == suffix else HasSuffix(s[1..], suffix)
  }

  lemma {:induction false} HasSuffixIsEndsWith(s: string, suffix: string)
    ensures HasSuffix(s, suffix) <==> EndsWith(s, suffix)
    decreases |s|
  {
    if |s| > |suffix| {
      HasSuffixIsEndsWith(s[1..], suffix);
      assert s[1..][|s[1..]| - |suffix|..] == s[|s| - |suffix|..];
    }
  }

  /** `name.endswith(('.html', '.js', '.css'))`: the watched extensions. */
  predicate Watched(name: string) {
    HasSuffix(name, ".html") || HasSuffix(name, ".js") || HasSuffix(name, ".css")
  }

  /** `os.path.join(dir, name)` for POSIX paths. */
  function JoinPath(dir: string, name: string): (p: string)
    ensures EndsWith(p, name)
  {
    if |name| > 0 && name[0] == '/' then name
    else if dir == "" || dir[|dir| - 1] == '/' then dir + name
    else dir + "/" + name
  }

  function PathOf(f: WalkedFile): string {
    JoinPath(f.dir, f.name)
  }

  /** Among the first `n` walked files, the last watched one at path `p` carries time `t`. */
  ghost predicate LastWriteWithin(walk: seq<WalkedFile>, n: nat, p: string, t: real)
    requires n <= |walk|
  {
    exists i :: 0 <= i < n && Watched(walk[i].name) && PathOf(walk[i]) == p && walk[i].mtime == Some(t)
      && forall j :: i < j < n && Watched(walk[j].name) ==> PathOf(walk[j]) != p
  }

  /** A write at index `n` to another path leaves the last write of `p` in place. */
  lemma LastWriteKept(walk: seq<WalkedFile>, n: nat, p: string, t: real)
    requires n < |walk|
    requires LastWriteWithin(walk, n, p, t)
    requires !(Watched(walk[n].name) && PathOf(walk[n]) == p)
    ensures LastWriteWithin(walk, n + 1, p, t)
  {
    var i :| 0 <= i < n && Watched(walk[i].name) && PathOf(walk[i]) == p && walk[i].mtime == Some(t)
      && forall j :: i < j < n && Watched(walk[j].name) ==> PathOf(walk[j]) != p;
    forall j | i < j < n + 1 && Watched(walk[j].name) ensures PathOf(walk[j]) != p {
      if j == n {
        assert !(Watched(walk[n].name) && PathOf(walk[n]) == p);
      }
    }
  }

  /** A watched file at index `n` is the last write of its own path among the first `n + 1`. */
  lemma LastWriteNew(walk: seq<WalkedFile>, n: nat, t: real)
    requires n < |walk|
    requires Watched(walk[n].name) && walk[n].mtime == Some(t)
    ensures LastWriteWithin(walk, n + 1, PathOf(walk[n]), t)
  {
  }

  /** Every entry of `times` is the last write of its path among the first `n` walked files. */
  ghost predicate TimesAreLastWrites(walk: seq<WalkedFile>, n: nat, times: FileSnapshot)
    requires n <= |walk|
  {
    forall p :: p in times ==> LastWriteWithin(walk, n, p, times[p])
  }

  /** Recording a watched file keeps every entry a last write. */
  lemma RecordWatched(walk: seq<WalkedFile>, n: nat, times: FileSnapshot, t: real)
    requires n < |walk|
    requires TimesAreLastWrites(walk, n, times)
    requires Watched(walk[n].name) && walk[n].mtime == Some(t)
    ensures TimesAreLastWrites(walk, n + 1, times[PathOf(walk[n]) := t])
  {
    var path := PathOf(walk[n]);
    forall p | p in times && p != path
      ensures LastWriteWithin(walk, n + 1, p, times[p])
    {
      LastWriteKept(walk, n, p, times[p]);
    }
    LastWriteNew(walk, n, t);
  }

  /** Skipping an unwatched file keeps every entry a last write. */
  lemma SkipUnwatched(walk: seq<WalkedFile>, n: nat, times: FileSnapshot)
    requires n < |walk|
    requires TimesAreLastWrites(walk, n, times)
    requires !Watched(walk[n].name)
    ensures TimesAreLastWrites(walk, n + 1, times)
  {
    forall p | p in times
      ensures LastWriteWithin(walk, n + 1, p, times[p])
    {
      LastWriteKept(walk, n, p, times[p]);
    }
  }

  /**
   * The snapshot loop of the `/live-reload-check` handler: the map holds
   * exactly the joined paths of the watched files, each with the time of
   * its last write (a later duplicate path overwrites an earlier one).
   * A watched file whose stat fails aborts the whole walk with the first
   * such path.
   */
  method TakeSnapshot(walk: seq<WalkedFile>) returns (r: Result<FileSnapshot, SnapshotError>)
    ensures r.Success? <==> forall i :: 0 <= i < |walk| && Watched(walk[i].name) ==> walk[i].mtime.Some?
    ensures r.Failure? ==>
      exists i :: 0 <= i < |walk| && Watched(walk[i].name) && walk[i].mtime.None?
        && r.error == Vanished(PathOf(walk[i]))
        && forall j :: 0 <= j < i && Watched(walk[j].name) ==> walk[j].mtime.Some?
    ensures r.Success? ==> forall i :: 0 <= i < |walk| && Watched(walk[i].name) ==> PathOf(walk[i]) in r.value
    ensures r.Success? ==> forall p :: p in r.value ==> LastWriteWithin(walk, |walk|, p, r.value[p])
  {
    var times: FileSnapshot := map[];
    var n := 0;
    while n < |walk|
      invariant 0 <= n <= |walk|
      invariant forall i :: 0 <= i < n && Watched(walk[i].name) ==> walk[i].mtime.Some?
      invariant forall i :: 0 <= i < n && Watched(walk[i].name) ==> PathOf(walk[i]) in times
      invariant TimesAreLastWrites(walk, n, times)
    {
      var f := walk[n];
      if Watched(f.name) {
        if f.mtime.None? {
          return Failure(Vanished(PathOf(f)));
        }
        RecordWatched(walk, n, times, f.mtime.value);
        times := times[PathOf(f) := f.mtime.value];
      } else {
        SkipUnwatched(walk, n, times);
      }
      n := n + 1;
    }
    return Success(times);
  }
}

=== FILE: strings.dfy ===
/**
 * String helpers shared by the server and the browser code: prefix and
 * suffix tests, substring search, splitting on a separator and joining
 * back (the semantics of Python's `str.split`/`str.replace` and of
 * JavaScript's `String.prototype.split` for a non-empty separator),
 * JavaScript's `trim`, and decimal rendering of naturals.
 */
module Strings {

  predicate StartsWith(s: string, prefix: string) {
    |prefix| <= |s| && s[..|prefix|] == prefix
  }

  predicate EndsWith(s: string, suffix: string) {
    |suffix| <= |s| && s[|s| - |suffix|..] == suffix
  }

  /** `pat` occurs in `s` starting at index `i`. */
  predicate OccursAt(s: string, pat: string, i: int) {
    0 <= i && i + |pat| <= |s| && s[i..i + |pat|] == pat
  }

  /** Substring test: Python's `pat in s`. */
  predicate Contains(s: string, pat: string) {
    exists i | 0 <= i <= |s| - |pat| :: OccursAt(s, pat, i)
  }

  /** Number of occurrences of character `c` in `s`. */
  function CountChar(s: string, c: char): (n: nat)
    ensures n <= |s|
    ensures n == 0 <==> c !in s
  {
    if |s| == 0 then 0 else (if s[0] == c then 1 else 0) + CountChar(s[1..], c)
  }

  /**
   * Leftmost, non-overlapping split of `s` at every occurrence of `sep`.
   * There is always at least one piece; `|SplitOn(s, sep)| - 1` is the
   * number of separator occurrences the scan consumes.
   */
  function SplitOn(s: string, sep: string): (parts: seq<string>)
    requires |sep| > 0
    ensures |parts| >= 1
    decreases |s|
  {
    if |s| < |sep| then [s]
    else if s[..|sep|] == sep then [""] + SplitOn(s[|sep|..], sep)
    else
      var rest := SplitOn(s[1..], sep);
      [[s[0]] + rest[0]] + rest[1..]
  }

  /** `sep.join(parts)`. */
  function JoinWith(parts: seq<string>, sep: string): string
  {
    if |parts| == 0 then ""
    else if |parts| == 1 then parts[0]
    else parts[0] + sep + JoinWith(parts[1..], sep)
  }

  /** Python's `s.replace(old, new)`: every leftmost non-overlapping `pat` becomes `rep`. */
  function ReplaceAll(s: string, pat: string, rep: string): string
    requires |pat| > 0
  {
    JoinWith(SplitOn(s, pat), rep)
  }

  lemma {:induction false} JoinConsHead(c: char, rest: seq<string>, sep: string)
    requires |rest| >= 1
    ensures JoinWith([[c] + rest[0]] + rest[1..], sep) == [c] + JoinWith(rest, sep)
  {
    var parts := [[c] + rest[0]] + rest[1..];
    if |rest| == 1 {
      assert parts == [[c] + rest[0]];
    } else {
      assert parts[1..] == rest[1..];
    }
  }

  /** Joining the pieces back with the separator restores the input. */
  lemma {:induction false} SplitJoin(s: string, sep: string)
    requires |sep| > 0
    ensures JoinWith(SplitOn(s, sep), sep) == s
    decreases |s|
  {
    if |s| < |sep| {
    } else if s[..|sep|] == sep {
      var rest := SplitOn(s[|sep|..], sep);
      SplitJoin(s[|sep|..], sep);
      var parts := [""] + rest;
      assert parts[1..] == rest;
      assert JoinWith(parts, sep) == "" + sep + JoinWith(rest, sep);
      assert s == s[..|sep|] + s[|sep|..];
    } else {
      var rest := SplitOn(s[1..], sep);
      SplitJoin(s[1..], sep);
      JoinConsHead(s[0], rest, sep);
      assert s == [s[0]] + s[1..];
    }
  }

  /** The first piece is a prefix of the input. */
  lemma {:induction false} SplitHeadIsPrefix(s: string, sep: string)
    requires |sep| > 0
    ensures StartsWith(s, SplitOn(s, sep)[0])
    decreases |s|
  {
    if |s| < |sep| {
    } else if s[..|sep|] == sep {
    } else {
      var rest := SplitOn(s[1..], sep);
      SplitHeadIsPrefix(s[1..], sep);
      assert s[1..][..|rest[0]|] == rest[0];
      assert s[..1 + |rest[0]|] == [s[0]] + rest[0];
    }
  }

  /** A text shorter than the separator cannot contain it. */
  lemma TooShortToContain(s: string, sep: string)
    requires |s| < |sep|
    ensures !Contains(s, sep)
  {
    forall i | OccursAt(s, sep, i) ensures false {}
  }

  /**
   * Prepending a character to a separator-free text keeps it free of the
   * separator, unless the separator now starts the text.
   */
  lemma ConsFree(c: char, t: string, sep: string)
    requires |sep| > 0
    requires !Contains(t, sep)
    requires !StartsWith([c] + t, sep)
    ensures !Contains([c] + t, sep)
  {
    var head := [c] + t;
    forall i | OccursAt(head, sep, i) ensures false {
      if i > 0 {
        assert head[i..i + |sep|] == t[i - 1..i - 1 + |sep|];
        assert OccursAt(t, sep, i - 1);
      }
    }
  }

  /** No piece contains the separator. */
  lemma {:induction false} SplitPiecesFree(s: string, sep: string)
    requires |sep| > 0
    ensures forall k :: 0 <= k < |SplitOn(s, sep)| ==> !Contains(SplitOn(s, sep)[k], sep)
    decreases |s|
  {
    var parts := SplitOn(s, sep);
    if |s| < |sep| {
      assert parts == [s];
      TooShortToContain(s, sep);
    } else if s[..|sep|] == sep {
      var rest := SplitOn(s[|sep|..], sep);
      SplitPiecesFree(s[|sep|..], sep);
      assert parts == [""] + rest;
      TooShortToContain("", sep);
      forall k | 0 <= k < |parts| ensures !Contains(parts[k], sep) {
        if k > 0 { assert parts[k] == rest[k - 1]; }
      }
    } else {
      var rest := SplitOn(s[1..], sep);
      SplitPiecesFree(s[1..], sep);
      SplitHeadIsPrefix(s, sep);
      var head := [s[0]] + rest[0];
      assert parts == [head] + rest[1..];
      assert !StartsWith(head, sep);
      ConsFree(s[0], rest[0], sep);
      forall k | 0 <= k < |parts| ensures !Contains(parts[k], sep) {
        if k > 0 { assert parts[k] == rest[k]; }
      }
    }
  }

  /** The split finds a separator exactly when `sep` is a substring of `s`. */
  lemma {:induction false} SplitFindsIffContains(s: string, sep: string)
    requires |sep| > 0
    ensures |SplitOn(s, sep)| > 1 <==> Contains(s, sep)
    decreases |s|
  {
    if |s| < |sep| {
      assert !Contains(s, sep) by {
        forall i | OccursAt(s, sep, i) ensures false {}
      }
    } else if s[..|sep|] == sep {
      assert OccursAt(s, sep, 0);
    } else {
      SplitFindsIffContains(s[1..], sep);
      if Contains(s, sep) {
        var i :| 0 <= i <= |s| - |sep| && OccursAt(s, sep, i);
        assert s[0..|sep|] == s[..|sep|];
        assert i != 0;
        assert s[1..][i - 1..i - 1 + |sep|] == s[i..i + |sep|];
        assert OccursAt(s[1..], sep, i - 1);
      }
      if Contains(s[1..], sep) {
        var i :| 0 <= i <= |s[1..]| - |sep| && OccursAt(s[1..], sep, i);
        assert s[i + 1..i + 1 + |sep|] == s[1..][i..i + |sep|];
        assert OccursAt(s, sep, i + 1);
      }
    }
  }

  /** Widening the separator by `extra` lengthens the join by `extra` once per gap. */
  lemma {:induction false} JoinWidened(parts: seq<string>, extra: string, sep: string)
    requires |parts| >= 1
    ensures |JoinWith(parts, extra + sep)| == |JoinWith(parts, sep)| + (|parts| - 1) * |extra|
  {
    if |parts| > 1 {
      JoinWidened(parts[1..], extra, sep);
      assert (|parts| - 1) * |extra| == (|parts| - 2) * |extra| + |extra|;
    }
  }

  // ---------------------------------------------------------------------
  // JavaScript `String.prototype.trim`
  // ---------------------------------------------------------------------

  /**
   * ECMAScript WhiteSpace and LineTerminator code points (section 12.2
   * and 12.3 of ECMA-262): TAB, VT, FF, SP, NBSP, ZWNBSP, the Unicode
   * space separators (Zs), LF, CR, LS and PS.
   */
  predicate IsJsSpace(c: char) {
    || c == '\t' || c == '\n' || c == '\U{B}' || c == '\U{C}' || c == '\r'
    || c == ' ' || c == '\U{A0}' || c == '\U{1680}'
    || ('\U{2000}' <= c <= '\U{200A}')
    || c == '\U{2028}' || c == '\U{2029}' || c == '\U{202F}' || c == '\U{205F}'
    || c == '\U{3000}' || c == '\U{FEFF}'
  }

  /** Index of the first non-space character, or `|s|`. */
  function TrimStartIndex(s: string): (i: nat)
    ensures i <= |s|
    ensures forall k :: 0 <= k < i ==> IsJsSpace(s[k])
    ensures i < |s| ==> !IsJsSpace(s[i])
  {
    if |s| == 0 || !IsJsSpace(s[0]) then 0 else 1 + TrimStartIndex(s[1..])
  }

  /** One past the index of the last non-space character, or `0`. */
  function TrimEndIndex(s: string): (j: nat)
    ensures j <= |s|
    ensures forall k :: j <= k < |s| ==> IsJsSpace(s[k])
    ensures j > 0 ==> !IsJsSpace(s[j - 1])
  {
    if |s| == 0 || !IsJsSpace(s[|s| - 1]) then |s| else TrimEndIndex(s[..|s| - 1])
  }

  /** `s.trim()`: the input without leading and trailing white space. */
  function Trim(s: string): (r: string)
    ensures |r| <= |s|
    ensures |r| > 0 ==> !IsJsSpace(r[0]) && !IsJsSpace(r[|r| - 1])
    ensures |r| == 0 <==> forall k :: 0 <= k < |s| ==> IsJsSpace(s[k])
  {
    var t := s[TrimStartIndex(s)..];
    t[..TrimEndIndex(t)]
  }

  /** Trimming twice is trimming once. */
  lemma TrimIdempotent(s: string)
    ensures Trim(Trim(s)) == Trim(s)
  {
    var r := Trim(s);
    assert TrimStartIndex(r) == 0;
    assert TrimEndIndex(r) == |r|;
    assert r[0..] == r;
    assert r[..|r|] == r;
  }

  // ---------------------------------------------------------------------
  // Decimal digits
  // ---------------------------------------------------------------------

  predicate IsDigit(c: char) { '0' <= c <= '9' }

  function DigitValue(c: char): (d: nat)
    requires IsDigit(c)
    ensures d < 10
  {
    (c as int - '0' as int) as nat
  }

  function DigitChar(d: nat): (c: char)
    requires d < 10
    ensures IsDigit(c) && DigitValue(c) == d
  {
    (d + '0' as int) as char
  }

  predicate AllDigits(s: string) {
    forall k :: 0 <= k < |s| ==> IsDigit(s[k])
  }

  /** Value of a string of decimal digits, most significant first. */
  function DecimalValue(s: string): nat
    requires AllDigits(s)
  {
    if |s| == 0 then 0 else 10 * DecimalValue(s[..|s| - 1]) + DigitValue(s[|s| - 1])
  }

  /** Python's `str(n)` for a natural number. */
  function NatToDecimal(n: nat): (s: string)
    ensures |s| >= 1 && AllDigits(s)
    ensures |s| > 1 ==> s[0] != '0'
  {
    if n < 10 then [DigitChar(n)] else NatToDecimal(n / 10) + [DigitChar(n % 10)]
  }

  /** Reading back the rendered digits gives the number. */
  lemma {:induction false} DecimalRoundTrip(n: nat)
    ensures DecimalValue(NatToDecimal(n)) == n
  {
    var s := NatToDecimal(n);
    if n >= 10 {
      DecimalRoundTrip(n / 10);
      assert s[..|s| - 1] == NatToDecimal(n / 10);
    }
  }
}

=== FILE: utf8.dfy ===
/**
 * UTF-8 encoding of text (RFC 3629), as performed by Python's
 * `str.encode('utf-8')` on the injected page before its byte length is
 * declared and its bytes are written.
 */
module Utf8 {
  import opened Wrappers

  type byte = x: int | 0 <= x < 256

  /** Number of bytes RFC 3629 uses for one scalar value. */
  function Width(c: char): (w: nat)
    ensures 1 <= w <= 4
  {
    var cp := c as int;
    if cp < 0x80 then 1 else if cp < 0x800 then 2 else if cp < 0x1_0000 then 3 else 4
  }

  /** Encoded length of a whole string, counted by widths. */
  function EncodedLength(s: string): (n: nat)
    ensures |s| <= n <= 4 * |s|
  {
    if |s| == 0 then 0 else Width(s[0]) + EncodedLength(s[1..])
  }

  function EncodeChar(c: char): (b: seq<byte>)
    ensures |b| == Width(c)
  {
    var cp := c as int;
    if cp < 0x80 then [cp]
    else if cp < 0x800 then [0xC0 + cp / 64, 0x80 + cp % 64]
    else if cp < 0x1_0000 then [0xE0 + cp / 4096, 0x80 + (cp / 64) % 64, 0x80 + cp % 64]
    else [0xF0 + cp / 262144, 0x80 + (cp / 4096) % 64, 0x80 + (cp / 64) % 64, 0x80 + cp % 64]
  }

  /** `s.encode('utf-8')`. */
  function Encode(s: string): (b: seq<byte>)
    ensures |b| == EncodedLength(s)
  {
    if |s| == 0 then [] else EncodeChar(s[0]) + Encode(s[1..])
  }

  /** Characters below U+0080 are written as their own code. */
  lemma {:induction false} AsciiEncodesToItself(s: string)
    requires forall k :: 0 <= k < |s| ==> s[k] as int < 0x80
    ensures Encode(s) == seq(|s|, k requires 0 <= k < |s| => s[k] as int)
  {
    if |s| > 0 {
      AsciiEncodesToItself(s[1..]);
    }
  }

  /** Sequence length announced by a leading byte, 0 for a continuation or invalid byte. */
  function LeadWidth(b: byte): nat
  {
    if b < 0x80 then 1
    else if 0xC0 <= b < 0xE0 then 2
    else if 0xE0 <= b < 0xF0 then 3
    else if 0xF0 <= b < 0xF8 then 4
    else 0
  }

  /** Scalar value carried by one complete byte sequence of the announced width. */
  function DecodeUnit(u: seq<byte>): int
    requires 1 <= |u| <= 4
  {
    var v := seq(|u|, k requires 0 <= k < |u| => u[k] as int);
    if |v| == 1 then v[0]
    else if |v| == 2 then (v[0] - 0xC0) * 64 + (v[1] - 0x80)
    else if |v| == 3 then (v[0] - 0xE0) * 4096 + (v[1] - 0x80) * 64 + (v[2] - 0x80)
    else (v[0] - 0xF0) * 262144 + (v[1] - 0x80) * 4096 + (v[2] - 0x80) * 64 + (v[3] - 0x80)
  }

  predicate IsScalar(v: int) {
    (0 <= v < 0xD800) || (0xE000 <= v < 0x11_0000)
  }

  /** Decoder for the byte stream; `None` on a malformed or truncated sequence. */
  function Decode(b: seq<byte>): Option<string>
    decreases |b|
  {
    if |b| == 0 then Some("")
    else
      var w := LeadWidth(b[0]);
      if w == 0 || |b| < w then None
      else
        var v := DecodeUnit(b[..w]);
        if !IsScalar(v) then None
        else
          match Decode(b[w..])
          case None => None
          case Some(rest) => Some([v as char] + rest)
  }

  lemma DivSplit(cp: int)
    requires 0 <= cp
    ensures cp == (cp / 64) * 64 + cp % 64
    ensures cp / 64 == (cp / 4096) * 64 + (cp / 64) % 64
    ensures cp / 4096 == (cp / 262144) * 64 + (cp / 4096) % 64
  {
    var q := cp / 64;
    assert q / 64 == cp / 4096;
    assert (cp / 4096) / 64 == cp / 262144;
  }

  lemma {:induction false} DecodeEncodeChar(c: char, rest: seq<byte>)
    ensures LeadWidth(EncodeChar(c)[0]) == Width(c)
    ensures (EncodeChar(c) + rest)[..Width(c)] == EncodeChar(c)
    ensures DecodeUnit(EncodeChar(c)) == c as int
  {
    var cp := c as int;
    DivSplit(cp);
    assert (EncodeChar(c) + rest)[..Width(c)] == EncodeChar(c);
  }

  /** Decoding the encoding gives the text back. */
  lemma {:induction false} DecodeEncode(s: string)
    ensures Decode(Encode(s)) == Some(s)
  {
    if |s| > 0 {
      var head := EncodeChar(s[0]);
      var tail := Encode(s[1..]);
      DecodeEncodeChar(s[0], tail);
      DecodeEncode(s[1..]);
      assert (head + tail)[Width(s[0])..] == tail;
      assert [s[0]] + s[1..] == s;
    }
  }
}

=== FILE: wrappers.dfy ===
/** Failure-carrying wrappers shared by every module of the model. */
module Wrappers {

  /** A value that may be absent (`undefined`/`null` in the JavaScript code, `None` in Python). */
  datatype Option<+T> = None | Some(value: T) {
    function GetOr(default: T): T {
      match this
      case Some(v) => v
      case None => default
    }
  }

  /** The outcome of an operation that may raise. */
  datatype Result<+T, +E> = Success(value: T) | Failure(error: E)
}
